=== FILE: README.md ===
# MS/MS spot assignment of the timsTOF MALDI imaging acquisition task

This project is a Dafny model of the decision logic in mzmine's
`TimsTOFImageMsMsTask`. For an imaging feature list, the task decides at
which imaging frames ("spots") each feature's precursor is fragmented, and
at which collision energy.

- **Row order.** Rows are processed in ascending average area. A row whose
  best feature is less intense than the MS/MS intensity floor is skipped.
- **Reuse pass** (`addEntriesToExistingSpots`). A feature is first added to
  spots that already exist at frames where it is intense enough. A spot is
  used only when:
  - its fixed collision energy is admissible for the feature;
  - the frame passes the purity (chimerity) gate;
  - the spot accepts the precursor.

  The pass stops once every energy of the ladder has `numMsMs` events.
- **Create pass** (`createNewMsMsSpots`). The feature's frames are walked
  from the most to the least intense. Frames that are already spots, or
  that have no spot info, are skipped. The pass ends at the first usable
  frame below the floor. Otherwise a new spot is created at the frame, with
  the collision energy picked by the energy helper. The engine takes the
  per-energy limit it hands the helper as a parameter. `run` hands it the
  source's literal 3, and the row lemmas hold for any limit (see "Findings").
- **Histogram.** Each row that reaches the create pass counts its number of
  MS/MS events in a histogram of `numMsMs * |energies| + 1` buckets.
- **Output.** The spots are handed over in plate order: by x, then by y.

The model is functional. The frame-to-spot map is a `Registry`: an
insertion log plus a map. The feature-to-spots map is a Dafny `map`. Each
pass is a recursive function over a sequence of candidates, and each
candidate step has its own contract. Code whose source is not part of this
model appears as function values in the `Collaborators` datatype:
- `ImagingSpot.addPrecursor`'s accept decision;
- the two collision-energy helpers of `TimsTOFAcquisitionUtils`, and their
  minimum-distance rule;
- `adjustMobilityRange`;
- the chimerity score.

Every operation is defined for every choice of these collaborators. The
properties that rely on the helpers' promises take `Honest` as a hypothesis.
`Honest` says three things about an energy a helper returns:
- it is on the ladder it was given;
- the precursor still has fewer events at it than the limit it was given;
- every spot the feature already uses at that energy is far enough, by the
  helpers' distance rule `farEnough`, from the position asked about.

The effect of a successful `addPrecursor` is modelled as follows: the spot
records the ion, and the precursor's count for the spot's energy goes up by
one. A precursor's counters are a multiset of energies.
- `getTotalMsMs` is the size of that multiset.
- `getLowestMsMsCountForCollisionEnergies` is the smallest count over the
  ladder.

`checkChimerityScore` is the predicate `Collaborators.CheckChimerityScore`:
a frame passes unless its score is below the threshold.

Modules, one file each:
- `Sorting` (sorting.dfy): stable insertion sort under a total preorder.
- `ImagingModel` (model.dfy): the entities and the precursor counters.
- `Collaborators` (collaborators.dfy): the unseen code, and the purity gate.
- `SpotRegistry` (registry.dfy): the frame-to-spot map.
- `Candidates` (candidates.dfy): the intensity-ordered walk of a series.
- `ExistingSpots` (existing.dfy): `getPossibleExistingSpots` and the reuse pass.
- `NewSpots` (newspots.dfy): the create pass.
- `SpotOrder` (spotorder.dfy): the final (x, y) ordering.
- `ImageMsMsTask` (task.dfy): the row loop, the histogram, and `run`.

## Model

| member | source | states |
|---|---|---|
| ImagingModel.MinCount | src/main/java/io/github/mzmine/modules/tools/timstofmaldiacq/imaging/TimsTOFImageMsMsTask.java:195-197 | the lowest MS/MS count is at most the count of every ladder energy and equals the count of one of them (0 for an empty ladder) |
| ImagingModel.Assign | src/main/java/io/github/mzmine/modules/tools/timstofmaldiacq/imaging/TimsTOFImageMsMsTask.java:349-354 | accepting a precursor keeps the spot's position, layout and energy, keeps the precursor's ion and ladder, and adds exactly one MS/MS event |
| ImagingModel.QuotaBoundsTotal | src/main/java/io/github/mzmine/modules/tools/timstofmaldiacq/imaging/TimsTOFImageMsMsTask.java:125 | a precursor with at most numMsMs events per ladder energy, and none off the ladder, has at most numMsMs * \|energies\| events in total |
| Collaborators.CheckChimerityScore | src/main/java/io/github/mzmine/modules/tools/timstofmaldiacq/imaging/TimsTOFImageMsMsTask.java:362-373 | a frame passes the purity gate exactly when its chimerity score for the ion is not below the threshold |
| SpotRegistry.ComputeIfAbsent | src/main/java/io/github/mzmine/modules/tools/timstofmaldiacq/imaging/TimsTOFImageMsMsTask.java:312-313 | an existing entry is returned untouched; otherwise the new spot is stored under the frame and the frame is appended to the log; no other entry changes; validity is kept when the spot carries the frame's spot info |
| SpotRegistry.Update | src/main/java/io/github/mzmine/modules/tools/timstofmaldiacq/imaging/TimsTOFImageMsMsTask.java:349 | changing a spot in place keeps the keys, the log, and every other entry; the spot's position and energy must not change |
| Sorting.Sort | src/main/java/io/github/mzmine/modules/tools/timstofmaldiacq/imaging/TimsTOFImageMsMsTask.java:169 | the result is a permutation of the input, ordered by the given total preorder |
| Sorting.SortIdempotent | src/main/java/io/github/mzmine/modules/tools/timstofmaldiacq/imaging/TimsTOFImageMsMsTask.java:169 | sorting an already ordered sequence returns it unchanged |
| Sorting.SortStable | src/main/java/io/github/mzmine/modules/tools/timstofmaldiacq/imaging/TimsTOFImageMsMsTask.java:169 | the sort is stable: the elements equal to any given one under the preorder come out in the order they went in |
| Candidates.IntensityOrder | src/main/java/io/github/mzmine/modules/tools/timstofmaldiacq/imaging/TimsTOFImageMsMsTask.java:275-283 | the walk visits every index of the series exactly once, never visits a point before a more intense one, and visits points of equal intensity in ascending index order |
| ExistingSpots.AddToSpot | src/main/java/io/github/mzmine/modules/tools/timstofmaldiacq/imaging/TimsTOFImageMsMsTask.java:349-354 | the spot is appended to the feature's spot list and the precursor gains one event at the spot's energy; the registry keeps its keys, every other spot, and its validity |
| ExistingSpots.AddKeepsQuota | src/main/java/io/github/mzmine/modules/tools/timstofmaldiacq/imaging/TimsTOFImageMsMsTask.java:337-354 | adding at an energy still under quota keeps every energy within numMsMs |
| ExistingSpots.PossibleExistingSpots | src/main/java/io/github/mzmine/modules/tools/timstofmaldiacq/imaging/TimsTOFImageMsMsTask.java:382-397 | the result holds only registry keys; it holds every series frame at or above the floor that is a key, and nothing else |
| ExistingSpots.PossibleExistingSpotsInSeriesOrder | src/main/java/io/github/mzmine/modules/tools/timstofmaldiacq/imaging/TimsTOFImageMsMsTask.java:387-395 | the result is exactly the frames of the points at or above the floor whose frames are registry keys, in series order: a strictly increasing choice of such points that leaves none of them out |
| ExistingSpots.NoSpotsNoCandidates | src/main/java/io/github/mzmine/modules/tools/timstofmaldiacq/imaging/TimsTOFImageMsMsTask.java:392-394 | with no spot in the registry there is no candidate to reuse |
| ExistingSpots.ReuseAttempt | src/main/java/io/github/mzmine/modules/tools/timstofmaldiacq/imaging/TimsTOFImageMsMsTask.java:334-354 | a candidate is attempted exactly when its spot's energy is in a non-empty admissible list and the frame passes the purity gate; the spot is then used exactly when it accepts the precursor, and nothing changes otherwise |
| ExistingSpots.ReusePass | src/main/java/io/github/mzmine/modules/tools/timstofmaldiacq/imaging/TimsTOFImageMsMsTask.java:328-359 | the reuse pass creates no spot: the registry's log and keys are unchanged, and no spot's position or energy changes |
| ExistingSpots.ReuseKeepsValid | src/main/java/io/github/mzmine/modules/tools/timstofmaldiacq/imaging/TimsTOFImageMsMsTask.java:333-359 | the reuse pass keeps the registry valid: every spot carries its key frame's spot info |
| ExistingSpots.ReuseGrows | src/main/java/io/github/mzmine/modules/tools/timstofmaldiacq/imaging/TimsTOFImageMsMsTask.java:349-354 | the feature's spot list only grows, and the precursor's events are its old events plus the energies of the appended spots |
| ExistingSpots.ReuseUsesAdmittedCandidates | src/main/java/io/github/mzmine/modules/tools/timstofmaldiacq/imaging/TimsTOFImageMsMsTask.java:333-354 | every spot the reuse pass appends is the spot of a candidate frame that passes the purity gate, whose energy the helper admitted for the precursor and the spots the feature had at that moment, and whose own spot, as the pass found it, accepted the precursor as it stood then; that spot is the candidate's spot at the start of the pass, plus the precursor's ion for each earlier addition at the same frame |
| ExistingSpots.ReuseIdleOnlyWhenNothingAdmitted | src/main/java/io/github/mzmine/modules/tools/timstofmaldiacq/imaging/TimsTOFImageMsMsTask.java:333-354 | conversely, a pass that leaves the feature's list as it was, on a precursor with some energy still under numMsMs, met no candidate whose energy was admissible, whose frame passed the purity gate and whose spot accepted the precursor |
| ExistingSpots.ReuseConcat | src/main/java/io/github/mzmine/modules/tools/timstofmaldiacq/imaging/TimsTOFImageMsMsTask.java:333-359 | the loop goes on to the next candidate after an addition: while the precursor still has an energy under numMsMs after the first candidates, the registry, the feature's list and the precursor after the whole list are those of the pass over the remaining candidates started from that point |
| ExistingSpots.ReuseContinuesWhileUnsatisfied | src/main/java/io/github/mzmine/modules/tools/timstofmaldiacq/imaging/TimsTOFImageMsMsTask.java:333-359 | at any point in the list where the precursor still has an energy under numMsMs, a later candidate whose energy is admissible there, whose frame passes the purity gate and whose spot accepts the precursor makes the pass append a further spot |
| ExistingSpots.ReuseStopsOnlyWhenSatisfied | src/main/java/io/github/mzmine/modules/tools/timstofmaldiacq/imaging/TimsTOFImageMsMsTask.java:356-358 | the pass leaves a suffix of the candidates unvisited, and leaves any unvisited only when every energy has reached numMsMs |
| ExistingSpots.ReuseBreaksWhenSatisfied | src/main/java/io/github/mzmine/modules/tools/timstofmaldiacq/imaging/TimsTOFImageMsMsTask.java:356-358 | the pass does not go on once every energy has reached numMsMs: after each appended spot but the last some energy is still under numMsMs, and a precursor satisfied from the start gains at most one spot |
| ExistingSpots.ReuseKeepsQuota | src/main/java/io/github/mzmine/modules/tools/timstofmaldiacq/imaging/TimsTOFImageMsMsTask.java:337-342 | with honest helpers, no energy of the precursor goes past numMsMs in the reuse pass |
| ExistingSpots.ReuseKeepsSpread | src/main/java/io/github/mzmine/modules/tools/timstofmaldiacq/imaging/TimsTOFImageMsMsTask.java:336-342 | with honest helpers, the reuse pass keeps any two of the feature's spots at the same energy at least the minimum distance apart |
| NewSpots.CreateAttempt | src/main/java/io/github/mzmine/modules/tools/timstofmaldiacq/imaging/TimsTOFImageMsMsTask.java:282-319 | the pass ends exactly at a fresh frame with spot info below the floor; a spot is created exactly when the frame is fresh, has spot info, is at or above the floor, gets an energy from the helper and passes the purity gate; the new spot has the frame's spot info, the task's layout and that energy, and no old spot changes; the spot and one event at its energy are added to the feature exactly when the precursor fits, and otherwise the empty spot stays and the feature is unchanged |
| NewSpots.CreatePass | src/main/java/io/github/mzmine/modules/tools/timstofmaldiacq/imaging/TimsTOFImageMsMsTask.java:280-320 | the create pass only appends to the registry: old keys keep their position and energy |
| NewSpots.CreateKeepsValid | src/main/java/io/github/mzmine/modules/tools/timstofmaldiacq/imaging/TimsTOFImageMsMsTask.java:312-313 | the create pass keeps the registry valid |
| NewSpots.CreateGrows | src/main/java/io/github/mzmine/modules/tools/timstofmaldiacq/imaging/TimsTOFImageMsMsTask.java:314-315 | the feature's spot list only grows, and the precursor's events are its old events plus the energies of the appended spots |
| NewSpots.CreateOnlyAtFreshFrames | src/main/java/io/github/mzmine/modules/tools/timstofmaldiacq/imaging/TimsTOFImageMsMsTask.java:285-313 | no existing spot is overwritten; every new key is a series frame that was not a key, has spot info, is at or above the floor and passes the purity gate |
| NewSpots.CreateRespectsTotal | src/main/java/io/github/mzmine/modules/tools/timstofmaldiacq/imaging/TimsTOFImageMsMsTask.java:280 | a precursor already at numMsMs * \|energies\| events is left alone, and one below that never ends above it |
| NewSpots.CreateEnergiesOnLadder | src/main/java/io/github/mzmine/modules/tools/timstofmaldiacq/imaging/TimsTOFImageMsMsTask.java:301-313 | with honest helpers, every spot the create pass makes is fixed to an energy of the ladder |
| NewSpots.CreateKeepsQuota | src/main/java/io/github/mzmine/modules/tools/timstofmaldiacq/imaging/TimsTOFImageMsMsTask.java:301-315 | with an honest helper and a limit at most n, the create pass keeps every energy of a precursor that was within n at or under n, and none off the ladder |
| NewSpots.CreateKeepsSpread | src/main/java/io/github/mzmine/modules/tools/timstofmaldiacq/imaging/TimsTOFImageMsMsTask.java:301-315 | with an honest helper, the create pass keeps any two of the feature's spots at the same energy at least the minimum distance apart |
| NewSpots.LiteralQuotaOvershoots | src/main/java/io/github/mzmine/modules/tools/timstofmaldiacq/imaging/TimsTOFImageMsMsTask.java:301-302 | with honest helpers, numMsMs = 1 and two fresh frames, the pass as written (limit 3) schedules one energy twice and breaks the per-energy quota, while the same pass with numMsMs as the limit keeps it |
| NewSpots.SkippingBelowFloorIsIdle | src/main/java/io/github/mzmine/modules/tools/timstofmaldiacq/imaging/TimsTOFImageMsMsTask.java:295-298 | in a variant that skips, rather than stops at, frames below the floor, such frames change nothing |
| NewSpots.BreakAgreesWithSkipping | src/main/java/io/github/mzmine/modules/tools/timstofmaldiacq/imaging/TimsTOFImageMsMsTask.java:295-298 | on an intensity-descending walk, stopping at the first usable frame below the floor gives the same result as skipping every frame below it |
| SpotOrder.IntCompare | src/main/java/io/github/mzmine/modules/tools/timstofmaldiacq/imaging/TimsTOFImageMsMsTask.java:224 | the sign of the result is the order of the two integers |
| SpotOrder.MixedCompareIsXY | src/main/java/io/github/mzmine/modules/tools/timstofmaldiacq/imaging/TimsTOFImageMsMsTask.java:223-230 | for entries whose spot carries its key frame's spot info, the comparator that mixes keys and values orders exactly by (x, y), and is antisymmetric |
| SpotOrder.SortedSpots | src/main/java/io/github/mzmine/modules/tools/timstofmaldiacq/imaging/TimsTOFImageMsMsTask.java:223-231 | the emitted list holds each registry spot once (a permutation of the registry's values) and is ordered by x, then y |
| SpotOrder.ResortIsIdentity | src/main/java/io/github/mzmine/modules/tools/timstofmaldiacq/imaging/TimsTOFImageMsMsTask.java:222-231 | re-sorting the emitted list by (x, y) gives it back unchanged |
| ImageMsMsTask.Initial | src/main/java/io/github/mzmine/modules/tools/timstofmaldiacq/imaging/TimsTOFImageMsMsTask.java:125-126 | the histogram starts with numMsMs * \|energies\| + 1 zero buckets, and the maps start empty |
| ImageMsMsTask.SortRows | src/main/java/io/github/mzmine/modules/tools/timstofmaldiacq/imaging/TimsTOFImageMsMsTask.java:166-169 | the rows are permuted into non-decreasing average area |
| ImageMsMsTask.SortRowsStable | src/main/java/io/github/mzmine/modules/tools/timstofmaldiacq/imaging/TimsTOFImageMsMsTask.java:166-169 | rows of equal average area keep their relative order |
| ImageMsMsTask.NewPrecursor | src/main/java/io/github/mzmine/modules/tools/timstofmaldiacq/imaging/TimsTOFImageMsMsTask.java:183-185 | a new precursor belongs to the row's feature, has its m/z, is isolated over the adjusted mobility range, has the task's energy ladder and no events |
| ImageMsMsTask.AddEntriesToExistingSpots | src/main/java/io/github/mzmine/modules/tools/timstofmaldiacq/imaging/TimsTOFImageMsMsTask.java:323-333 | the reuse pass adds no registry key, enters exactly the feature into the feature-to-spots map, and leaves the histogram alone |
| ImageMsMsTask.CreateNewMsMsSpots | src/main/java/io/github/mzmine/modules/tools/timstofmaldiacq/imaging/TimsTOFImageMsMsTask.java:205-206 | the create pass, with the per-energy limit it is given, only appends to the registry, enters exactly the feature into the feature-to-spots map, and leaves the histogram alone |
| ImageMsMsTask.AfterReuse | src/main/java/io/github/mzmine/modules/tools/timstofmaldiacq/imaging/TimsTOFImageMsMsTask.java:183-192 | after a row's reuse pass the registry has the same keys and only appended changes |
| ImageMsMsTask.CreateAndCount | src/main/java/io/github/mzmine/modules/tools/timstofmaldiacq/imaging/TimsTOFImageMsMsTask.java:205-209 | the count succeeds exactly when the precursor's final number of events is a bucket of the histogram; then that bucket goes up by one and no other bucket changes; otherwise the failure reports that number |
| ImageMsMsTask.ProcessRow | src/main/java/io/github/mzmine/modules/tools/timstofmaldiacq/imaging/TimsTOFImageMsMsTask.java:173-209 | a row only appends to the registry and keeps the histogram's size |
| ImageMsMsTask.ReachesCreate | src/main/java/io/github/mzmine/modules/tools/timstofmaldiacq/imaging/TimsTOFImageMsMsTask.java:178-203 | a row past the floor, still under numMsMs after reuse and past the capacity guard ends as the create pass and count on the state after reuse; any other row ends unchanged or as the reuse pass left it |
| ImageMsMsTask.RowBelowFloorIdle | src/main/java/io/github/mzmine/modules/tools/timstofmaldiacq/imaging/TimsTOFImageMsMsTask.java:178-181 | a row whose best feature is below the floor changes nothing |
| ImageMsMsTask.RowHistogramCount | src/main/java/io/github/mzmine/modules/tools/timstofmaldiacq/imaging/TimsTOFImageMsMsTask.java:194-209 | a row that is satisfied after reuse, or stopped by the capacity guard, creates no key and leaves the histogram alone; a row that reaches the create pass succeeds exactly when its number of events is a bucket, and then adds one to that bucket only |
| ImageMsMsTask.RunRows | src/main/java/io/github/mzmine/modules/tools/timstofmaldiacq/imaging/TimsTOFImageMsMsTask.java:170-210 | the row loop only appends to the registry and keeps the histogram's size |
| ImageMsMsTask.Run | src/main/java/io/github/mzmine/modules/tools/timstofmaldiacq/imaging/TimsTOFImageMsMsTask.java:159-231 | no rows means no acquisition; an acquisition has a histogram of numMsMs * \|energies\| + 1 buckets and spots in (x, y) order |
| ImageMsMsTask.AfterReuseKeepsValid | src/main/java/io/github/mzmine/modules/tools/timstofmaldiacq/imaging/TimsTOFImageMsMsTask.java:190-192 | a row's reuse pass keeps the registry valid |
| ImageMsMsTask.CreateAndCountKeepsValid | src/main/java/io/github/mzmine/modules/tools/timstofmaldiacq/imaging/TimsTOFImageMsMsTask.java:205-209 | a row's create pass keeps the registry valid |
| ImageMsMsTask.RowKeepsValid | src/main/java/io/github/mzmine/modules/tools/timstofmaldiacq/imaging/TimsTOFImageMsMsTask.java:173-209 | one row keeps the registry valid |
| ImageMsMsTask.RunKeepsValid | src/main/java/io/github/mzmine/modules/tools/timstofmaldiacq/imaging/TimsTOFImageMsMsTask.java:170-210 | the row loop keeps the registry valid, so every emitted spot sits at its own frame's position |
| ImageMsMsTask.AfterReuseWithinQuota | src/main/java/io/github/mzmine/modules/tools/timstofmaldiacq/imaging/TimsTOFImageMsMsTask.java:183-192 | with honest helpers, after the reuse pass no energy has more than numMsMs events and none is off the ladder |
| ImageMsMsTask.RowAddsWithinQuota | src/main/java/io/github/mzmine/modules/tools/timstofmaldiacq/imaging/TimsTOFImageMsMsTask.java:183-206 | with honest helpers, a row appends every energy of the ladder at most max(numMsMs, limit) times to its feature's spot list, and no other energy: numMsMs times with the corrected limit numMsMs, max(numMsMs, 3) times with the source's 3 |
| ImageMsMsTask.RowKeepsSpread | src/main/java/io/github/mzmine/modules/tools/timstofmaldiacq/imaging/TimsTOFImageMsMsTask.java:190-206 | with honest helpers, a row keeps every feature's spots at one energy at least the minimum distance apart |
| ImageMsMsTask.RunKeepsSpread | src/main/java/io/github/mzmine/modules/tools/timstofmaldiacq/imaging/TimsTOFImageMsMsTask.java:170-210 | with honest helpers, the row loop keeps every feature's spots at one energy at least the minimum distance apart |
| ImageMsMsTask.RunSpotsSpreadOut | src/main/java/io/github/mzmine/modules/tools/timstofmaldiacq/imaging/TimsTOFImageMsMsTask.java:164-210 | with honest helpers, a run that starts from empty maps ends with every feature's spots at one energy at least the minimum distance apart |
| ImageMsMsTask.CreateAndCountInBounds | src/main/java/io/github/mzmine/modules/tools/timstofmaldiacq/imaging/TimsTOFImageMsMsTask.java:206-209 | a precursor within quota keeps the histogram index in bounds |
| ImageMsMsTask.RowHistogramInBounds | src/main/java/io/github/mzmine/modules/tools/timstofmaldiacq/imaging/TimsTOFImageMsMsTask.java:125-126 | with honest helpers and a histogram of numMsMs * \|energies\| + 1 buckets, a row never indexes past the histogram |
| ImageMsMsTask.RunHistogramInBounds | src/main/java/io/github/mzmine/modules/tools/timstofmaldiacq/imaging/TimsTOFImageMsMsTask.java:170-210 | with honest helpers the row loop never indexes past the histogram |
| ImageMsMsTask.RunNeverFails | src/main/java/io/github/mzmine/modules/tools/timstofmaldiacq/imaging/TimsTOFImageMsMsTask.java:209 | with honest helpers the run never fails on the histogram index |
| ImageMsMsTask.RunHistogramSum | src/main/java/io/github/mzmine/modules/tools/timstofmaldiacq/imaging/TimsTOFImageMsMsTask.java:209 | each row adds at most one histogram count |
| ImageMsMsTask.RunHistogramBuckets | src/main/java/io/github/mzmine/modules/tools/timstofmaldiacq/imaging/TimsTOFImageMsMsTask.java:170-209 | bucket k of the histogram grows by the number of rows that reached the create pass and ended with k events |
| ImageMsMsTask.RunHistogramCountsRows | src/main/java/io/github/mzmine/modules/tools/timstofmaldiacq/imaging/TimsTOFImageMsMsTask.java:166-209 | in an acquisition, bucket k is the number of rows, in ascending area order, that reached the create pass and ended with k events |
| ImageMsMsTask.RunEmitsRegistry | src/main/java/io/github/mzmine/modules/tools/timstofmaldiacq/imaging/TimsTOFImageMsMsTask.java:212-231 | a run that completes emits every spot of the valid final registry exactly once, with the final histogram, whose counts add up to at most the number of rows |
| ImageMsMsTask.CreateAndCountKeysFromSeries | src/main/java/io/github/mzmine/modules/tools/timstofmaldiacq/imaging/TimsTOFImageMsMsTask.java:282-313 | the create pass adds keys only at frames of the series it walks |
| ImageMsMsTask.RowKeysFromSeries | src/main/java/io/github/mzmine/modules/tools/timstofmaldiacq/imaging/TimsTOFImageMsMsTask.java:199-209 | a row adds keys only at frames of its own best feature's series |
| ImageMsMsTask.RunKeysFromSeries | src/main/java/io/github/mzmine/modules/tools/timstofmaldiacq/imaging/TimsTOFImageMsMsTask.java:199-203 | every key the run adds is a frame of a processed feature's series; the registry is bounded by the frames, whatever the capacity guard compares |
| ImageMsMsTask.CreateIdleWhenImpure | src/main/java/io/github/mzmine/modules/tools/timstofmaldiacq/imaging/TimsTOFImageMsMsTask.java:308-310 | when no frame passes the purity gate, the create pass changes nothing |
| ImageMsMsTask.RowImpureIdle | src/main/java/io/github/mzmine/modules/tools/timstofmaldiacq/imaging/TimsTOFImageMsMsTask.java:308-310 | when no frame passes the purity gate, a row in a run with no spots creates none and counts only in bucket 0 |
| ImageMsMsTask.AllImpureCreatesNothing | src/main/java/io/github/mzmine/modules/tools/timstofmaldiacq/imaging/TimsTOFImageMsMsTask.java:308-310 | when no frame passes the purity gate, a run that starts with no spots never creates one and changes no histogram bucket except bucket 0 |

## Findings

| source | as written | input that shows it | evidently intended | confidence | as-written member | corrected member |
|---|---|---|---|---|---|---|
| src/main/java/io/github/mzmine/modules/tools/timstofmaldiacq/imaging/TimsTOFImageMsMsTask.java:301-302 | the create pass hands `getBestCollisionEnergyForSpot` the literal 3 as the per-energy limit, while the reuse pass (line 338) hands it `numMsMs` | numMsMs = 1, energies 20 and 40, an energy helper that proposes the first energy under its limit, two fresh frames above the floor: energy 20 is scheduled twice | the limit is `numMsMs`, so that no energy gets more than `numMsMs` events | medium, not executed: whether it shows depends on the helper's choice, which is not part of this model | NewSpots.LiteralQuotaOvershoots | NewSpots.CreateKeepsQuota, and ImageMsMsTask.RowAddsWithinQuota with the limit at numMsMs |

`NewSpots.CreateQuota` is the literal 3 of the source. `ImageMsMsTask.Run`
hands it to the create pass, as the source does. Everything below `Run`
(`CreateNewMsMsSpots`, `ProcessRow`, `RunRows` and the lemmas about them)
takes the limit as a parameter. The corrected program is the same engine with
the limit at `numMsMs`. For that limit, `RowAddsWithinQuota` states the
intended quota of `numMsMs` events per energy. For the literal 3 it states
max(numMsMs, 3), and `LiteralQuotaOvershoots` shows that this bound is
reached. The histogram bound does not depend on the limit, because the create
loop stops at numMsMs * |energies| events in any case (line 280).

## Left out

- The internals of `ImagingSpot`, `MaldiTimsPrecursor`, `IntensitySortedSeries`,
  `TimsTOFAcquisitionUtils` and `IonMobilityUtils` are not part of this model.
  Their decisions are the collaborator functions described above. Their promises
  are the `Honest` hypothesis, and the effect of `addPrecursor` is `Assign`.
- Floating point is modelled as `real`, with no NaN. The isolation window
  (`isolationWidth / 1.7 / 2`, line 117) only feeds the chimerity score, which is
  a collaborator.
- These parts of the task are I/O or instrument control, and are left out:
  - creating the save directory;
  - deleting and writing the acquisition file, and the acquisition-file writer;
  - `acquire`;
  - the commented-out command-file block;
  - the histogram logging (lines 212-217) and other logging;
  - progress, task status and cancellation. A run is modelled as never
    cancelled.
- The number of scans of the data file is the parameter `Config.numScans`.
- The capacity guard (line 199) is modelled as written. It compares the number of
  features in the feature-to-spots map with the number of scans, not the number of
  spots. It tests with `==`, so it stops the create pass only while the map holds
  exactly `numScans` features. Every row past the floor enters its feature into the
  map during the reuse pass, so once the map holds more, the guard never fires again.
  `RunKeysFromSeries` shows that spots are bounded by the frames in any case.
- The feature-to-spots map is keyed by feature id, not by object identity.
- The energy helpers are handed the feature's spots as `UsedSpot` values
  (plate position and collision energy). The source hands them the
  `ImagingSpot` objects (lines 301-302 and 337-338). The helpers are
  collaborators, and the model takes them to look only at the position and
  the energy of those spots.
- ExistingSpots.ReuseUsesAdmittedCandidates: when a frame comes up more than
  once among the candidates, the spot that accepted the precursor on a later
  visit is stated as the starting spot plus copies of the precursor's ion. The
  number of copies is not stated.
- The reuse pass hands the helper the spot's own spot info, not the frame's spot
  info. The two are equal in a valid registry (`RunKeepsValid`).
- The iteration order of the Java hash map is the registry's insertion log. When
  no two frames share a plate position (x, y), it is not visible after the final
  sort. When two do, the model keeps them in log order, where Java keeps them in
  the hash map's order.
- Histogram counts are unbounded naturals, not 32-bit `int`s.
  `RunEmitsRegistry` bounds their sum by the number of rows.
- `IntensitySortedSeries` is not part of this model. The walk is taken to visit
  points of equal intensity in ascending index order.
- The minimum-distance rule is the collaborator `farEnough`: how the helpers
  measure the distance between two plate positions is not part of this model.
- ImageMsMsTask.Run: the contract states the order and the histogram size.
  `RunEmitsRegistry` states the permutation of the registry's spots.

=== FILE: candidates.dfy ===
/** The traversal of a feature's ion series from the most to the least
    intense point (IntensitySortedSeries), as the sequence of series indices
    it yields. Equal intensities come out in ascending index order. */
module Candidates {
  import opened ImagingModel
  import opened Sorting

  /** A series point keyed for sorting: its intensity and its index. */
  predicate MoreIntense(a: (real, int), b: (real, int)) {
    a.0 > b.0 || (a.0 == b.0 && a.1 <= b.1)
  }

  lemma MoreIntenseIsTotalPreorder()
    ensures TotalPreorder(MoreIntense)
  {
  }

  /** No point of the order is followed by a more intense one. */
  ghost predicate Descending(series: seq<DataPoint>, order: seq<int>)
    requires forall k :: 0 <= k < |order| ==> 0 <= order[k] < |series|
  {
    forall k, l :: 0 <= k < l < |order| ==> series[order[k]].intensity >= series[order[l]].intensity
  }

  /** The series' indices, descending by intensity: a permutation of the
      indices in which no point is followed by a more intense one, and points
      of equal intensity come in ascending index order. */
  function IntensityOrder(series: seq<DataPoint>): (r: seq<int>)
    ensures |r| == |series|
    ensures forall k :: 0 <= k < |r| ==> 0 <= r[k] < |series|
    ensures forall i :: 0 <= i < |series| ==> i in r
    ensures Descending(series, r)
    ensures forall k, l :: 0 <= k < l < |r| && series[r[k]].intensity == series[r[l]].intensity ==>
              r[k] <= r[l]
  {
    var keyed := seq(|series|, i requires 0 <= i < |series| => (series[i].intensity, i));
    MoreIntenseIsTotalPreorder();
    var sorted := Sort(keyed, MoreIntense);
    assert |sorted| == |keyed| by {
      assert |multiset(sorted)| == |multiset(keyed)|;
    }
    assert forall k :: 0 <= k < |sorted| ==>
        0 <= sorted[k].1 < |series| && sorted[k].0 == series[sorted[k].1].intensity by {
      forall k | 0 <= k < |sorted|
        ensures 0 <= sorted[k].1 < |series| && sorted[k].0 == series[sorted[k].1].intensity
      {
        assert sorted[k] in multiset(keyed);
      }
    }
    var r := seq(|sorted|, k requires 0 <= k < |sorted| => sorted[k].1);
    EveryIndexSorted(series, keyed, sorted, r);
    SortedKeysDescend(series, sorted, r);
    r
  }

  /** Every index of the series comes out of the sort. */
  lemma EveryIndexSorted(series: seq<DataPoint>, keyed: seq<(real, int)>, sorted: seq<(real, int)>,
                         r: seq<int>)
    requires |keyed| == |series| && forall i :: 0 <= i < |series| ==> keyed[i].1 == i
    requires multiset(sorted) == multiset(keyed)
    requires |r| == |sorted| && forall k :: 0 <= k < |sorted| ==> r[k] == sorted[k].1
    ensures forall i :: 0 <= i < |series| ==> i in r
  {
    forall i | 0 <= i < |series|
      ensures i in r
    {
      assert keyed[i] in multiset(sorted);
      var k :| 0 <= k < |sorted| && sorted[k] == keyed[i];
      assert r[k] == i;
    }
  }

  /** The indices of keys sorted by MoreIntense descend by intensity, with
      ties in ascending index order. */
  lemma SortedKeysDescend(series: seq<DataPoint>, sorted: seq<(real, int)>, r: seq<int>)
    requires |r| == |sorted|
    requires forall k :: 0 <= k < |sorted| ==>
               0 <= sorted[k].1 < |series| && sorted[k].0 == series[sorted[k].1].intensity
               && r[k] == sorted[k].1
    requires SortedBy(sorted, MoreIntense)
    ensures forall k :: 0 <= k < |r| ==> 0 <= r[k] < |series|
    ensures Descending(series, r)
    ensures forall k, l :: 0 <= k < l < |r| && series[r[k]].intensity == series[r[l]].intensity ==>
              r[k] <= r[l]
  {
    assert forall k, l :: 0 <= k < l < |r| ==> MoreIntense(sorted[k], sorted[l]);
  }
}

=== FILE: collaborators.dfy ===
/** The code the task calls but whose source is not part of this model, as
    function values: the engine is defined for every choice of them, and the
    properties that depend on what they promise take `Honest` as a hypothesis. */
module Collaborators {
  import opened ImagingModel

  datatype Collaborators = Collaborators(
    /** TimsTOFAcquisitionUtils.adjustMobilityRange(mobility, range, minWidth, maxWidth) */
    adjustMobilityRange: (real, Range, real, real) -> Range,
    /** The decision of ImagingSpot.addPrecursor: does the precursor fit the spot? */
    fits: (Spot, Precursor) -> bool,
    /** IonMobilityUtils.getIsolationChimerity for the ion at the frame, with the
        task's narrowed isolation window already applied. */
    chimerity: (Frame, Ion) -> real,
    /** TimsTOFAcquisitionUtils.getBestCollisionEnergyForSpot(minDistance,
        precursor, usedSpots, spotInfo, ladder, quota) */
    bestEnergy: (int, Precursor, seq<UsedSpot>, SpotInfo, seq<real>, int) -> Option<real>,
    /** TimsTOFAcquisitionUtils.getPossibleCollisionEnergiesForSpot(minDistance,
        precursor, usedSpots, spotInfo, ladder, numMsMs) */
    possibleEnergies: (int, Precursor, seq<UsedSpot>, SpotInfo, seq<real>, int) -> seq<real>,
    /** The helpers' distance rule: is the second plate position at least the
        minimum distance away from the first? */
    farEnough: (SpotInfo, SpotInfo, int) -> bool
  )

  /** What the energy helpers promise. An energy they return is on the ladder
      they were given and still under the quota they were given for the
      precursor, and every spot the feature already uses at that energy is
      far enough from the position asked about. */
  ghost predicate Honest(o: Collaborators) {
    && (forall d, p, us, info, ladder, n ::
          o.bestEnergy(d, p, us, info, ladder, n).Some? ==>
            && o.bestEnergy(d, p, us, info, ladder, n).value in ladder
            && p.acquired[o.bestEnergy(d, p, us, info, ladder, n).value] < n
            && FarFromSameEnergy(o, us, info, o.bestEnergy(d, p, us, info, ladder, n).value, d))
    && (forall d, p, us, info, ladder, n, e ::
          e in o.possibleEnergies(d, p, us, info, ladder, n) ==>
            e in ladder && p.acquired[e] < n && FarFromSameEnergy(o, us, info, e, d))
  }

  /** Every used spot at energy `e` is far enough from `info`. */
  ghost predicate FarFromSameEnergy(o: Collaborators, us: seq<UsedSpot>, info: SpotInfo,
                                    e: real, d: int) {
    forall i :: 0 <= i < |us| && us[i].energy == e ==> o.farEnough(us[i].info, info, d)
  }

  /** checkChimerityScore: a frame passes the purity gate exactly when its
      chimerity score reaches the threshold. */
  function CheckChimerityScore(o: Collaborators, minChimerity: real, ion: Ion, frame: Frame)
    : (pass: bool)
    ensures pass <==> minChimerity <= o.chimerity(frame, ion)
  {
    !(o.chimerity(frame, ion) < minChimerity)
  }
}

=== FILE: existing.dfy ===
/** The reuse pass of the task: a feature is added to spots already in the
    registry (getPossibleExistingSpots and addEntriesToExistingSpots). */
module ExistingSpots {
  import opened ImagingModel
  import opened Collaborators
  import opened SpotRegistry

  /** What a pass over one feature works on: the registry, the feature's list
      of spots it is fragmented at, and its precursor. */
  datatype PassState = PassState(reg: Registry, used: seq<UsedSpot>, precursor: Precursor)

  /** `after` only appended to the feature's spot list, and the precursor's
      counters grew by exactly the energies of the appended spots. */
  ghost predicate Grows(before: PassState, after: PassState) {
    && |before.used| <= |after.used|
    && after.used[..|before.used|] == before.used
    && after.precursor.ion == before.precursor.ion
    && after.precursor.ladder == before.precursor.ladder
    && after.precursor.acquired
       == before.precursor.acquired + Energies(after.used[|before.used|..])
  }

  lemma GrowsReflexive(st: PassState)
    ensures Grows(st, st)
  {
    assert st.used[|st.used|..] == [];
  }

  lemma GrowsTransitive(a: PassState, b: PassState, c: PassState)
    requires Grows(a, b) && Grows(b, c)
    ensures Grows(a, c)
  {
    var ab, bc := b.used[|a.used|..], c.used[|b.used|..];
    assert c.used[..|a.used|] == c.used[..|b.used|][..|a.used|];
    assert c.used[|a.used|..] == c.used[..|b.used|][|a.used|..] + bc;
    assert c.used[|a.used|..] == ab + bc;
    EnergiesAppend(ab, bc);
    assert c.precursor.acquired == a.precursor.acquired + Energies(ab) + Energies(bc);
  }

  /** addPrecursor succeeded at the spot of `frame`: the spot records the ion,
      the feature's list gains the spot, the counter for its energy goes up. */
  function AddToSpot(st: PassState, frame: Frame): (r: PassState)
    requires frame in st.reg.spots
    ensures Grows(st, r)
    ensures r.used == st.used + [Header(st.reg.spots[frame])]
    ensures r.reg.log == st.reg.log && r.reg.spots.Keys == st.reg.spots.Keys
    ensures Extends(st.reg, r.reg)
    ensures Valid(st.reg) ==> Valid(r.reg)
    ensures forall g :: g in st.reg.spots && g != frame ==> r.reg.spots[g] == st.reg.spots[g]
  {
    var spot := st.reg.spots[frame];
    var (spot', p') := Assign(spot, st.precursor);
    var r := PassState(Update(st.reg, frame, spot'), st.used + [Header(spot)], p');
    assert r.used[|st.used|..] == [Header(spot)];
    r
  }

  /** The addition appends the precursor's ion to the spot at `frame` and
      leaves every other spot alone. */
  lemma AddGainsIon(st: PassState, frame: Frame)
    requires frame in st.reg.spots
    ensures RegistryGained(st.reg, AddToSpot(st, frame).reg, st.precursor.ion)
  {
    var r := AddToSpot(st, frame).reg;
    RegistryGainedReflexive(st.reg, st.precursor.ion);
    var spot := st.reg.spots[frame];
    assert r.spots[frame] == spot.(ions := spot.ions + [st.precursor.ion]);
    assert r.spots[frame].ions[..|spot.ions|] == spot.ions;
  }

  /** An addition whose energy was admissible keeps the per-energy quota. */
  lemma AddKeepsQuota(st: PassState, frame: Frame, ladder: seq<real>, n: nat)
    requires frame in st.reg.spots
    requires WithinQuota(st.precursor, ladder, n)
    requires st.reg.spots[frame].energy in ladder
    requires st.precursor.acquired[st.reg.spots[frame].energy] < n
    ensures WithinQuota(AddToSpot(st, frame).precursor, ladder, n)
  {
  }

  /** getPossibleExistingSpots: in series order, the frames of points at least
      as intense as the floor that are already keys of the registry. */
  function PossibleExistingSpots(spots: map<Frame, Spot>, series: seq<DataPoint>,
                                 minIntensity: real): (r: seq<Frame>)
    ensures forall k :: 0 <= k < |r| ==> r[k] in spots
    ensures forall i :: (0 <= i < |series| && series[i].intensity >= minIntensity
                         && series[i].frame in spots) ==> series[i].frame in r
    ensures forall f :: f in r ==>
              (exists i :: 0 <= i < |series| && series[i].frame == f
                           && series[i].intensity >= minIntensity)
    ensures |r| <= |series|
  {
    if |series| == 0 then []
    else
      var rest := PossibleExistingSpots(spots, series[1..], minIntensity);
      assert forall i :: 1 <= i < |series| ==> series[i] == series[1..][i - 1];
      if series[0].intensity < minIntensity then rest
      else if series[0].frame in spots then [series[0].frame] + rest
      else rest
  }

  /** With no spot in the registry there is nothing to reuse. */
  lemma {:induction false} NoSpotsNoCandidates(series: seq<DataPoint>, minIntensity: real)
    ensures PossibleExistingSpots(map[], series, minIntensity) == []
    decreases |series|
  {
    if |series| > 0 {
      NoSpotsNoCandidates(series[1..], minIntensity);
    }
  }

  /** `idx` picks, in strictly increasing order, the series points whose frames
      make up `frames`, each of them at or above the floor. */
  ghost predicate SelectsInOrder(frames: seq<Frame>, series: seq<DataPoint>,
                                 minIntensity: real, idx: seq<int>) {
    && |idx| == |frames|
    && (forall k :: 0 <= k < |idx| ==>
          (0 <= idx[k] < |series| && series[idx[k]].frame == frames[k]
           && series[idx[k]].intensity >= minIntensity))
    && (forall k, l :: 0 <= k < l < |idx| ==> idx[k] < idx[l])
  }

  /** A selection from the series without its first point, as a selection
      from the whole series that avoids the first point. */
  lemma ShiftSelection(frames: seq<Frame>, series: seq<DataPoint>, minIntensity: real,
                       idx: seq<int>)
    returns (shifted: seq<int>)
    requires |series| > 0
    requires SelectsInOrder(frames, series[1..], minIntensity, idx)
    ensures SelectsInOrder(frames, series, minIntensity, shifted)
    ensures |shifted| == |idx| && forall k :: 0 <= k < |idx| ==> shifted[k] == idx[k] + 1
    ensures forall k :: 0 <= k < |shifted| ==> shifted[k] >= 1
  {
    shifted := seq(|idx|, k requires 0 <= k < |idx| => idx[k] + 1);
    forall k | 0 <= k < |idx|
      ensures series[shifted[k]] == series[1..][idx[k]]
    {
    }
  }

  /** A selection avoiding the first point, preceded by the first point. */
  lemma PrependSelection(frames: seq<Frame>, series: seq<DataPoint>, minIntensity: real,
                         idx: seq<int>)
    requires |series| > 0 && series[0].intensity >= minIntensity
    requires SelectsInOrder(frames, series, minIntensity, idx)
    requires forall k :: 0 <= k < |idx| ==> idx[k] >= 1
    ensures SelectsInOrder([series[0].frame] + frames, series, minIntensity, [0] + idx)
  {
  }

  /** Every point of the series at or above the floor whose frame is a key of
      `spots` is picked by `idx`. */
  ghost predicate SelectsEveryQualifying(spots: map<Frame, Spot>, series: seq<DataPoint>,
                                         minIntensity: real, idx: seq<int>) {
    forall i :: (0 <= i < |series| && series[i].intensity >= minIntensity
                 && series[i].frame in spots) ==> i in idx
  }

  /** Shifting a complete selection from the series without its first point
      picks every qualifying point but the first. */
  lemma ShiftEveryQualifying(spots: map<Frame, Spot>, series: seq<DataPoint>, minIntensity: real,
                             idx: seq<int>, shifted: seq<int>)
    requires |series| > 0
    requires SelectsEveryQualifying(spots, series[1..], minIntensity, idx)
    requires |shifted| == |idx| && forall k :: 0 <= k < |idx| ==> shifted[k] == idx[k] + 1
    ensures forall i :: (1 <= i < |series| && series[i].intensity >= minIntensity
                         && series[i].frame in spots) ==> i in shifted
  {
    forall i | 1 <= i < |series| && series[i].intensity >= minIntensity && series[i].frame in spots
      ensures i in shifted
    {
      assert series[1..][i - 1] == series[i];
      var k :| 0 <= k < |idx| && idx[k] == i - 1;
      assert shifted[k] == i;
    }
  }

  /** The first point prepended to the rest of a complete selection. */
  lemma PrependEveryQualifying(spots: map<Frame, Spot>, series: seq<DataPoint>,
                               minIntensity: real, shifted: seq<int>)
    requires |series| > 0
    requires forall i :: (1 <= i < |series| && series[i].intensity >= minIntensity
                          && series[i].frame in spots) ==> i in shifted
    ensures SelectsEveryQualifying(spots, series, minIntensity, [0] + shifted)
  {
  }

  /** A first point below the floor or at a fresh frame is left out. */
  lemma SkipEveryQualifying(spots: map<Frame, Spot>, series: seq<DataPoint>,
                            minIntensity: real, shifted: seq<int>)
    requires |series| > 0 && !(series[0].intensity >= minIntensity && series[0].frame in spots)
    requires forall i :: (1 <= i < |series| && series[i].intensity >= minIntensity
                          && series[i].frame in spots) ==> i in shifted
    ensures SelectsEveryQualifying(spots, series, minIntensity, shifted)
  {
  }

  /** The candidates of the reuse pass are exactly the frames of the
      qualifying points, in the order of the series: an ordered selection of
      points at or above the floor that leaves no qualifying point out (a
      frame that several points carry comes once per point). */
  lemma PossibleExistingSpotsInSeriesOrder(spots: map<Frame, Spot>, series: seq<DataPoint>,
                                           minIntensity: real)
    ensures exists idx :: && SelectsInOrder(PossibleExistingSpots(spots, series, minIntensity),
                                            series, minIntensity, idx)
                          && SelectsEveryQualifying(spots, series, minIntensity, idx)
  {
    var idx := CandidateSelection(spots, series, minIntensity);
  }

  /** The selection of the previous lemma, built point by point. */
  lemma {:induction false} CandidateSelection(spots: map<Frame, Spot>, series: seq<DataPoint>,
                                              minIntensity: real)
    returns (idx: seq<int>)
    ensures SelectsInOrder(PossibleExistingSpots(spots, series, minIntensity), series,
                           minIntensity, idx)
    ensures SelectsEveryQualifying(spots, series, minIntensity, idx)
    decreases |series|
  {
    var r := PossibleExistingSpots(spots, series, minIntensity);
    if |series| == 0 {
      idx := [];
      assert SelectsInOrder(r, series, minIntensity, idx);
    } else {
      var rest := PossibleExistingSpots(spots, series[1..], minIntensity);
      var tail := CandidateSelection(spots, series[1..], minIntensity);
      var shifted := ShiftSelection(rest, series, minIntensity, tail);
      ShiftEveryQualifying(spots, series, minIntensity, tail, shifted);
      if series[0].intensity >= minIntensity && series[0].frame in spots {
        assert r == [series[0].frame] + rest;
        PrependSelection(rest, series, minIntensity, shifted);
        PrependEveryQualifying(spots, series, minIntensity, shifted);
        idx := [0] + shifted;
      } else {
        assert r == rest;
        SkipEveryQualifying(spots, series, minIntensity, shifted);
        idx := shifted;
      }
    }
  }

  /** One candidate of the reuse pass. None when the gates turn it away: its
      spot's energy is not admissible for the feature, or it fails the purity
      gate. Otherwise the state after asking the spot to accept the precursor. */
  function ReuseAttempt(c: Config, o: Collaborators, st: PassState, frame: Frame)
    : (r: Option<PassState>)
    requires frame in st.reg.spots
    ensures r.Some? <==>
              (var admissible := o.possibleEnergies(c.minDistance, st.precursor, st.used,
                                                    st.reg.spots[frame].info, c.ladder, c.numMsMs);
               && |admissible| > 0 && st.reg.spots[frame].energy in admissible
               && CheckChimerityScore(o, c.minChimerity, st.precursor.ion, frame))
    ensures r.Some? ==> (r.value == AddToSpot(st, frame) <==> o.fits(st.reg.spots[frame], st.precursor))
    ensures r.Some? && !o.fits(st.reg.spots[frame], st.precursor) ==> r.value == st
  {
    var spot := st.reg.spots[frame];
    var admissible := o.possibleEnergies(c.minDistance, st.precursor, st.used, spot.info,
                                         c.ladder, c.numMsMs);
    if |admissible| == 0 || spot.energy !in admissible then None
    else if !CheckChimerityScore(o, c.minChimerity, st.precursor.ion, frame) then None
    else if o.fits(spot, st.precursor) then Some(AddToSpot(st, frame))
    else Some(st)
  }

  /** The reuse pass over the candidate frames (the loop of
      addEntriesToExistingSpots). After every attempted candidate the pass
      stops if every energy has reached numMsMs. Returns the state and the
      candidates not visited. */
  function ReusePass(c: Config, o: Collaborators, cands: seq<Frame>, st: PassState)
    : (r: (PassState, seq<Frame>))
    requires forall k :: 0 <= k < |cands| ==> cands[k] in st.reg.spots
    ensures r.0.reg.log == st.reg.log && r.0.reg.spots.Keys == st.reg.spots.Keys
    ensures Extends(st.reg, r.0.reg)
    decreases |cands|
  {
    if |cands| == 0 then (st, [])
    else
      match ReuseAttempt(c, o, st, cands[0])
      case None => ReusePass(c, o, cands[1..], st)
      case Some(next) =>
        if LowestMsMsCount(next.precursor) >= c.numMsMs then (next, cands[1..])
        else
          var res := ReusePass(c, o, cands[1..], next);
          ExtendsTransitive(st.reg, next.reg, res.0.reg);
          res
  }

  /** The reuse pass keeps the registry valid. */
  lemma {:induction false} ReuseKeepsValid(c: Config, o: Collaborators, cands: seq<Frame>,
                                           st: PassState)
    requires forall k :: 0 <= k < |cands| ==> cands[k] in st.reg.spots
    requires Valid(st.reg)
    ensures Valid(ReusePass(c, o, cands, st).0.reg)
    decreases |cands|
  {
    if |cands| > 0 {
      match ReuseAttempt(c, o, st, cands[0])
      case None => ReuseKeepsValid(c, o, cands[1..], st);
      case Some(next) =>
        if LowestMsMsCount(next.precursor) < c.numMsMs {
          ReuseKeepsValid(c, o, cands[1..], next);
        }
    }
  }

  /** The reuse pass only appends to the feature's spot list, and the
      precursor's counters grow by exactly the energies of the appended spots. */
  lemma {:induction false} ReuseGrows(c: Config, o: Collaborators, cands: seq<Frame>,
                                      st: PassState)
    requires forall k :: 0 <= k < |cands| ==> cands[k] in st.reg.spots
    ensures Grows(st, ReusePass(c, o, cands, st).0)
    decreases |cands|
  {
    if |cands| == 0 {
      GrowsReflexive(st);
    } else {
      match ReuseAttempt(c, o, st, cands[0])
      case None => ReuseGrows(c, o, cands[1..], st);
      case Some(next) =>
        GrowsReflexive(st);
        if LowestMsMsCount(next.precursor) < c.numMsMs {
          ReuseGrows(c, o, cands[1..], next);
          GrowsTransitive(st, next, ReusePass(c, o, cands[1..], next).0);
        }
    }
  }

  /** One attempt appends at most one spot. */
  lemma AttemptGrowsByOne(c: Config, o: Collaborators, st: PassState, frame: Frame)
    requires frame in st.reg.spots && ReuseAttempt(c, o, st, frame).Some?
    ensures Grows(st, ReuseAttempt(c, o, st, frame).value)
    ensures |ReuseAttempt(c, o, st, frame).value.used| <= |st.used| + 1
  {
    if !o.fits(st.reg.spots[frame], st.precursor) {
      GrowsReflexive(st);
    }
  }

  /** The precursor as it stood once the feature's list had grown to
      `used[..k]`: the events of `st` plus the energies appended since. */
  function PrecursorAt(st: PassState, used: seq<UsedSpot>, k: int): Precursor
    requires |st.used| <= k <= |used|
  {
    Precursor(st.precursor.ion, st.precursor.ladder,
              st.precursor.acquired + Energies(used[|st.used|..k]))
  }

  /** A later state's view of the same list gives the same precursor. */
  lemma PrecursorAtShift(st: PassState, next: PassState, used: seq<UsedSpot>, k: int)
    requires Grows(st, next)
    requires |next.used| <= k <= |used| && used[..|next.used|] == next.used
    ensures PrecursorAt(next, used, k) == PrecursorAt(st, used, k)
  {
    assert used[|st.used|..k] == next.used[|st.used|..] + used[|next.used|..k];
    EnergiesAppend(next.used[|st.used|..], used[|next.used|..k]);
  }

  /** `sp` is the spot `start` with the ion `ion` appended to it some number
      of times: what the reuse pass of a precursor with that ion can have made
      of a spot by the time it visits it. */
  ghost predicate GainedIon(start: Spot, sp: Spot, ion: Ion) {
    && sp.info == start.info && sp.mode == start.mode && sp.energy == start.energy
    && |start.ions| <= |sp.ions| && sp.ions[..|start.ions|] == start.ions
    && forall i :: |start.ions| <= i < |sp.ions| ==> sp.ions[i] == ion
  }

  /** Every spot of `later` is its spot in `earlier` with the ion appended. */
  ghost predicate RegistryGained(earlier: Registry, later: Registry, ion: Ion) {
    forall f :: f in earlier.spots ==>
      f in later.spots && GainedIon(earlier.spots[f], later.spots[f], ion)
  }

  lemma RegistryGainedReflexive(r: Registry, ion: Ion)
    ensures RegistryGained(r, r, ion)
  {
    forall f | f in r.spots
      ensures GainedIon(r.spots[f], r.spots[f], ion)
    {
      assert r.spots[f].ions[..|r.spots[f].ions|] == r.spots[f].ions;
    }
  }

  lemma GainedIonTransitive(a: Spot, b: Spot, sp: Spot, ion: Ion)
    requires GainedIon(a, b, ion) && GainedIon(b, sp, ion)
    ensures GainedIon(a, sp, ion)
  {
    assert sp.ions[..|a.ions|] == sp.ions[..|b.ions|][..|a.ions|];
    forall i | |a.ions| <= i < |sp.ions|
      ensures sp.ions[i] == ion
    {
      if i < |b.ions| {
        assert sp.ions[i] == sp.ions[..|b.ions|][i];
      }
    }
  }

  /** The candidate `cands[j]`, visited while the feature's list was
      `used[..k]`, accepted the precursor as it then stood: its own spot,
      possibly with the precursor's ion already added by an earlier visit to
      the same frame, and exactly the spot it had when the pass started if
      its frame did not come up before. */
  ghost predicate AcceptedOnVisit(o: Collaborators, cands: seq<Frame>, st: PassState,
                                  used: seq<UsedSpot>, k: int, j: int)
    requires |st.used| <= k < |used| && 0 <= j < |cands| && cands[j] in st.reg.spots
  {
    exists sp :: && GainedIon(st.reg.spots[cands[j]], sp, st.precursor.ion)
                 && (cands[j] !in cands[..j] ==> sp == st.reg.spots[cands[j]])
                 && o.fits(sp, PrecursorAt(st, used, k))
  }

  /** `used[k]` is the spot of one of the candidates that passed every gate
      of the reuse pass when it was visited: the frame passes the purity gate,
      the spot's energy was admissible for the feature as it then stood (its
      spots `used[..k]`, its precursor `PrecursorAt(st, used, k)`), and the
      candidate's spot accepted that precursor. */
  ghost predicate AdmittedAt(c: Config, o: Collaborators, cands: seq<Frame>, st: PassState,
                             used: seq<UsedSpot>, k: int)
    requires |st.used| <= k < |used|
  {
    && (exists j :: 0 <= j < |cands| && cands[j] in st.reg.spots
          && used[k] == Header(st.reg.spots[cands[j]])
          && CheckChimerityScore(o, c.minChimerity, st.precursor.ion, cands[j])
          && AcceptedOnVisit(o, cands, st, used, k, j))
    && used[k].energy in o.possibleEnergies(c.minDistance, PrecursorAt(st, used, k), used[..k],
                                            used[k].info, c.ladder, c.numMsMs)
  }

  /** Every spot `after` appended to the feature's list since `before` passed
      every gate of the reuse pass. */
  ghost predicate AppendsAdmitted(c: Config, o: Collaborators, cands: seq<Frame>,
                                  before: PassState, after: PassState) {
    && |before.used| <= |after.used|
    && forall k :: |before.used| <= k < |after.used| ==>
         AdmittedAt(c, o, cands, before, after.used, k)
  }

  /** A spot the first candidate's attempt appends passed every gate. */
  lemma FirstAdmitted(c: Config, o: Collaborators, cands: seq<Frame>, st: PassState,
                      used: seq<UsedSpot>)
    requires |cands| > 0 && forall k :: 0 <= k < |cands| ==> cands[k] in st.reg.spots
    requires ReuseAttempt(c, o, st, cands[0]).Some?
    requires o.fits(st.reg.spots[cands[0]], st.precursor)
    requires |st.used| < |used| && used[..|st.used| + 1] == AddToSpot(st, cands[0]).used
    ensures AdmittedAt(c, o, cands, st, used, |st.used|)
  {
    var k := |st.used|;
    var spot := st.reg.spots[cands[0]];
    assert used[k] == Header(spot) by {
      assert used[..k + 1][k] == used[k];
    }
    assert used[..k] == st.used by {
      assert used[..k] == used[..k + 1][..k];
    }
    assert used[|st.used|..k] == [];
    assert PrecursorAt(st, used, k) == st.precursor;
    RegistryGainedReflexive(st.reg, st.precursor.ion);
    assert GainedIon(spot, spot, st.precursor.ion);
    assert AcceptedOnVisit(o, cands, st, used, k, 0);
  }

  /** Lifts the admissions found for the rest of the candidates, from a
      later state, to the whole list and the earlier state. */
  lemma ShiftAdmitted(c: Config, o: Collaborators, cands: seq<Frame>, st: PassState,
                      next: PassState, r: PassState)
    requires |cands| > 0
    requires forall k :: 0 <= k < |cands| ==> cands[k] in st.reg.spots
    requires next.reg.spots.Keys == st.reg.spots.Keys && Extends(st.reg, next.reg)
    requires RegistryGained(st.reg, next.reg, st.precursor.ion)
    requires forall g :: g in st.reg.spots && g != cands[0] ==> next.reg.spots[g] == st.reg.spots[g]
    requires Grows(st, next) && Grows(next, r)
    requires forall k :: |st.used| <= k < |next.used| ==> AdmittedAt(c, o, cands, st, r.used, k)
    requires AppendsAdmitted(c, o, cands[1..], next, r)
    ensures AppendsAdmitted(c, o, cands, st, r)
  {
    forall k | |next.used| <= k < |r.used|
      ensures AdmittedAt(c, o, cands, st, r.used, k)
    {
      assert AdmittedAt(c, o, cands[1..], next, r.used, k);
      PrecursorAtShift(st, next, r.used, k);
      var j :| 0 <= j < |cands[1..]| && cands[1..][j] in next.reg.spots
               && r.used[k] == Header(next.reg.spots[cands[1..][j]])
               && CheckChimerityScore(o, c.minChimerity, next.precursor.ion, cands[1..][j])
               && AcceptedOnVisit(o, cands[1..], next, r.used, k, j);
      assert cands[1..][j] == cands[j + 1];
      LiftVisit(o, cands, st, next, r.used, k, j);
    }
  }

  /** One visit of the rest of the candidates, seen from the earlier state. */
  lemma LiftVisit(o: Collaborators, cands: seq<Frame>, st: PassState, next: PassState,
                  used: seq<UsedSpot>, k: int, j: int)
    requires |cands| > 0 && 0 <= j < |cands| - 1 && cands[j + 1] in st.reg.spots
    requires RegistryGained(st.reg, next.reg, st.precursor.ion)
    requires forall g :: g in st.reg.spots && g != cands[0] ==> next.reg.spots[g] == st.reg.spots[g]
    requires Grows(st, next)
    requires |next.used| <= k < |used| && used[..|next.used|] == next.used
    requires cands[1..][j] in next.reg.spots && AcceptedOnVisit(o, cands[1..], next, used, k, j)
    ensures AcceptedOnVisit(o, cands, st, used, k, j + 1)
    ensures Header(next.reg.spots[cands[j + 1]]) == Header(st.reg.spots[cands[j + 1]])
  {
    var f := cands[j + 1];
    assert cands[1..][j] == f;
    PrecursorAtShift(st, next, used, k);
    var sp :| && GainedIon(next.reg.spots[f], sp, next.precursor.ion)
              && (f !in cands[1..][..j] ==> sp == next.reg.spots[f])
              && o.fits(sp, PrecursorAt(next, used, k));
    GainedIonTransitive(st.reg.spots[f], next.reg.spots[f], sp, st.precursor.ion);
    if f !in cands[..j + 1] {
      assert f != cands[0] by {
        assert cands[..j + 1][0] == cands[0];
      }
      assert cands[1..][..j] == cands[..j + 1][1..];
      assert f !in cands[1..][..j];
    }
    assert GainedIon(st.reg.spots[f], sp, st.precursor.ion)
           && (f !in cands[..j + 1] ==> sp == st.reg.spots[f])
           && o.fits(sp, PrecursorAt(st, used, k));
  }

  /** Every spot the reuse pass appends is the spot of one of the candidates,
      and passed all three gates when it was visited: its energy was
      admissible, its frame passed the purity gate, and the candidate's own
      spot, as the pass found it, accepted the precursor. */
  lemma {:induction false} ReuseUsesAdmittedCandidates(c: Config, o: Collaborators,
                                                       cands: seq<Frame>, st: PassState)
    requires forall k :: 0 <= k < |cands| ==> cands[k] in st.reg.spots
    ensures AppendsAdmitted(c, o, cands, st, ReusePass(c, o, cands, st).0)
    decreases |cands|
  {
    if |cands| == 0 {
      assert ReusePass(c, o, cands, st).0 == st;
    } else {
      match ReuseAttempt(c, o, st, cands[0])
      case None =>
        ReuseUsesAdmittedCandidates(c, o, cands[1..], st);
        SkipThenAdmitted(c, o, cands, st);
      case Some(next) =>
        if LowestMsMsCount(next.precursor) < c.numMsMs {
          ReuseUsesAdmittedCandidates(c, o, cands[1..], next);
        }
        AttemptedThenAdmitted(c, o, cands, st, next);
    }
  }

  /** An attempted candidate, followed by the admitted appends of the rest
      of the pass when it goes on. */
  lemma AttemptedThenAdmitted(c: Config, o: Collaborators, cands: seq<Frame>, st: PassState,
                              next: PassState)
    requires |cands| > 0 && forall k :: 0 <= k < |cands| ==> cands[k] in st.reg.spots
    requires ReuseAttempt(c, o, st, cands[0]) == Some(next)
    requires LowestMsMsCount(next.precursor) < c.numMsMs ==>
               AppendsAdmitted(c, o, cands[1..], next, ReusePass(c, o, cands[1..], next).0)
    ensures AppendsAdmitted(c, o, cands, st, ReusePass(c, o, cands, st).0)
  {
    if LowestMsMsCount(next.precursor) < c.numMsMs {
      var r := ReusePass(c, o, cands[1..], next).0;
      assert ReusePass(c, o, cands, st).0 == r;
      ReuseGrows(c, o, cands[1..], next);
      AttemptThenAdmitted(c, o, cands, st, next, r);
    } else {
      assert ReusePass(c, o, cands, st).0 == next;
      GrowsReflexive(next);
      assert AppendsAdmitted(c, o, cands[1..], next, next);
      AttemptThenAdmitted(c, o, cands, st, next, next);
    }
  }

  /** A candidate turned away by the gates, followed by admitted appends. */
  lemma SkipThenAdmitted(c: Config, o: Collaborators, cands: seq<Frame>, st: PassState)
    requires |cands| > 0 && forall k :: 0 <= k < |cands| ==> cands[k] in st.reg.spots
    requires ReuseAttempt(c, o, st, cands[0]).None?
    requires AppendsAdmitted(c, o, cands[1..], st, ReusePass(c, o, cands[1..], st).0)
    ensures AppendsAdmitted(c, o, cands, st, ReusePass(c, o, cands, st).0)
  {
    var r := ReusePass(c, o, cands[1..], st).0;
    assert ReusePass(c, o, cands, st).0 == r;
    ReuseGrows(c, o, cands[1..], st);
    GrowsReflexive(st);
    RegistryGainedReflexive(st.reg, st.precursor.ion);
    ShiftAdmitted(c, o, cands, st, st, r);
  }

  /** One successful attempt followed by admitted appends. */
  lemma AttemptThenAdmitted(c: Config, o: Collaborators, cands: seq<Frame>, st: PassState,
                            next: PassState, r: PassState)
    requires |cands| > 0 && forall k :: 0 <= k < |cands| ==> cands[k] in st.reg.spots
    requires ReuseAttempt(c, o, st, cands[0]) == Some(next)
    requires Grows(next, r)
    requires AppendsAdmitted(c, o, cands[1..], next, r)
    ensures AppendsAdmitted(c, o, cands, st, r)
  {
    GrowsReflexive(st);
    if o.fits(st.reg.spots[cands[0]], st.precursor) {
      assert r.used[..|st.used| + 1] == next.used by {
        assert r.used[..|next.used|] == next.used;
      }
      FirstAdmitted(c, o, cands, st, r.used);
      AddGainsIon(st, cands[0]);
    } else {
      RegistryGainedReflexive(st.reg, st.precursor.ion);
    }
    ShiftAdmitted(c, o, cands, st, next, r);
  }

  /** A candidate that would be admitted straight away: its attempt passes
      the gates and its spot accepts the precursor as it stands. */
  predicate AdmitsNow(c: Config, o: Collaborators, st: PassState, frame: Frame)
    requires frame in st.reg.spots
  {
    ReuseAttempt(c, o, st, frame).Some? && o.fits(st.reg.spots[frame], st.precursor)
  }

  /** The converse of ReuseUsesAdmittedCandidates: a pass that leaves the
      feature's list as it was, on a precursor that still had an energy under
      numMsMs, met no candidate it could have added the precursor to. */
  lemma ReuseIdleOnlyWhenNothingAdmitted(c: Config, o: Collaborators, cands: seq<Frame>,
                                         st: PassState)
    requires forall k :: 0 <= k < |cands| ==> cands[k] in st.reg.spots
    requires LowestMsMsCount(st.precursor) < c.numMsMs
    requires ReusePass(c, o, cands, st).0.used == st.used
    ensures forall j :: 0 <= j < |cands| ==> !AdmitsNow(c, o, st, cands[j])
  {
    ReuseAppendsWhenAdmitted(c, o, cands, st);
  }

  /** While the precursor has an energy under numMsMs, a candidate that
      would be admitted straight away makes the pass append a spot. */
  lemma {:induction false} ReuseAppendsWhenAdmitted(c: Config, o: Collaborators,
                                                    cands: seq<Frame>, st: PassState)
    requires forall k :: 0 <= k < |cands| ==> cands[k] in st.reg.spots
    requires LowestMsMsCount(st.precursor) < c.numMsMs
    ensures (exists j :: 0 <= j < |cands| && AdmitsNow(c, o, st, cands[j])) ==>
              |ReusePass(c, o, cands, st).0.used| > |st.used|
    decreases |cands|
  {
    if |cands| > 0 {
      var r := ReusePass(c, o, cands, st).0;
      match ReuseAttempt(c, o, st, cands[0])
      case None =>
        ReuseAppendsWhenAdmitted(c, o, cands[1..], st);
        AdmittedInTail(c, o, cands, st);
      case Some(next) =>
        if o.fits(st.reg.spots[cands[0]], st.precursor) {
          assert |next.used| == |st.used| + 1;
          if LowestMsMsCount(next.precursor) < c.numMsMs {
            ReuseGrows(c, o, cands[1..], next);
          }
        } else {
          assert next == st;
          ReuseAppendsWhenAdmitted(c, o, cands[1..], st);
          AdmittedInTail(c, o, cands, st);
        }
    }
  }

  /** A candidate admitted straight away other than the first is one of the
      rest of the list. */
  lemma AdmittedInTail(c: Config, o: Collaborators, cands: seq<Frame>, st: PassState)
    requires |cands| > 0 && forall k :: 0 <= k < |cands| ==> cands[k] in st.reg.spots
    requires !AdmitsNow(c, o, st, cands[0])
    ensures (exists j :: 0 <= j < |cands| && AdmitsNow(c, o, st, cands[j])) ==>
              (exists j :: 0 <= j < |cands[1..]| && AdmitsNow(c, o, st, cands[1..][j]))
  {
    if exists j :: 0 <= j < |cands| && AdmitsNow(c, o, st, cands[j]) {
      var j :| 0 <= j < |cands| && AdmitsNow(c, o, st, cands[j]);
      assert j != 0;
      var f := cands[j];
      assert cands[1..][j - 1] == f;
      assert 0 <= j - 1 < |cands[1..]| && AdmitsNow(c, o, st, cands[1..][j - 1]);
    }
  }

  /** The pass over two lists of candidates, the first of which leaves the
      precursor with an energy under numMsMs, is the pass over the first
      followed by the pass over the second: the loop goes on to the next
      candidate after an addition unless every energy has reached numMsMs. */
  lemma {:induction false} ReuseConcat(c: Config, o: Collaborators, a: seq<Frame>,
                                       b: seq<Frame>, st: PassState)
    requires forall k :: 0 <= k < |a| ==> a[k] in st.reg.spots
    requires forall k :: 0 <= k < |b| ==> b[k] in st.reg.spots
    requires LowestMsMsCount(ReusePass(c, o, a, st).0.precursor) < c.numMsMs
    ensures ReusePass(c, o, a + b, st) == ReusePass(c, o, b, ReusePass(c, o, a, st).0)
    decreases |a|, 1
  {
    if |a| == 0 {
      assert a + b == b;
    } else {
      match ReuseAttempt(c, o, st, a[0])
      case None => ConcatAfterSkip(c, o, a, b, st);
      case Some(next) => ConcatAfterAttempt(c, o, a, b, st, next);
    }
  }

  lemma ConcatTail<T>(a: seq<T>, b: seq<T>)
    requires |a| > 0
    ensures (a + b)[0] == a[0] && (a + b)[1..] == a[1..] + b
  {
  }

  /** The step of ReuseConcat where the gates turn the first candidate away. */
  lemma ConcatAfterSkip(c: Config, o: Collaborators, a: seq<Frame>, b: seq<Frame>,
                        st: PassState)
    requires |a| > 0 && forall k :: 0 <= k < |a| ==> a[k] in st.reg.spots
    requires forall k :: 0 <= k < |b| ==> b[k] in st.reg.spots
    requires ReuseAttempt(c, o, st, a[0]).None?
    requires LowestMsMsCount(ReusePass(c, o, a, st).0.precursor) < c.numMsMs
    ensures ReusePass(c, o, a + b, st) == ReusePass(c, o, b, ReusePass(c, o, a, st).0)
    decreases |a|, 0
  {
    ConcatTail(a, b);
    ReuseConcat(c, o, a[1..], b, st);
  }

  /** The step of ReuseConcat where the first candidate passes the gates: the
      pass does not stop there, since it ends with an energy under numMsMs. */
  lemma ConcatAfterAttempt(c: Config, o: Collaborators, a: seq<Frame>, b: seq<Frame>,
                           st: PassState, next: PassState)
    requires |a| > 0 && forall k :: 0 <= k < |a| ==> a[k] in st.reg.spots
    requires forall k :: 0 <= k < |b| ==> b[k] in st.reg.spots
    requires ReuseAttempt(c, o, st, a[0]) == Some(next)
    requires LowestMsMsCount(ReusePass(c, o, a, st).0.precursor) < c.numMsMs
    ensures ReusePass(c, o, a + b, st) == ReusePass(c, o, b, ReusePass(c, o, a, st).0)
    decreases |a|, 0
  {
    ConcatTail(a, b);
    if LowestMsMsCount(next.precursor) < c.numMsMs {
      ReuseConcat(c, o, a[1..], b, next);
    }
  }

  /** Where the pass has gone through the first candidates and the precursor
      still has an energy under numMsMs, a later candidate that would admit
      it there makes the pass append a further spot. */
  lemma ReuseContinuesWhileUnsatisfied(c: Config, o: Collaborators, a: seq<Frame>,
                                       b: seq<Frame>, st: PassState, j: nat)
    requires forall k :: 0 <= k < |a| ==> a[k] in st.reg.spots
    requires forall k :: 0 <= k < |b| ==> b[k] in st.reg.spots
    requires LowestMsMsCount(ReusePass(c, o, a, st).0.precursor) < c.numMsMs
    requires j < |b| && AdmitsNow(c, o, ReusePass(c, o, a, st).0, b[j])
    ensures |ReusePass(c, o, a + b, st).0.used| > |ReusePass(c, o, a, st).0.used|
  {
    ReuseConcat(c, o, a, b, st);
    ReuseAppendsWhenAdmitted(c, o, b, ReusePass(c, o, a, st).0);
  }

  /** The pass leaves candidates unvisited only once every energy of the
      precursor has reached numMsMs; what it leaves is a suffix of the list. */
  lemma ReuseStopsOnlyWhenSatisfied(c: Config, o: Collaborators, cands: seq<Frame>,
                                    st: PassState)
    requires forall k :: 0 <= k < |cands| ==> cands[k] in st.reg.spots
    ensures IsSuffix(ReusePass(c, o, cands, st).1, cands)
    ensures ReusePass(c, o, cands, st).1 != [] ==>
              LowestMsMsCount(ReusePass(c, o, cands, st).0.precursor) >= c.numMsMs
  {
    ReuseLeavesSuffix(c, o, cands, st);
    ReuseLeavesOnlyWhenSatisfied(c, o, cands, st);
  }

  /** `a` is what is left of `b` after dropping some of its first elements. */
  ghost predicate IsSuffix<T>(a: seq<T>, b: seq<T>) {
    |a| <= |b| && a == b[|b| - |a|..]
  }

  lemma SuffixOfTail<T>(a: seq<T>, b: seq<T>)
    requires |b| > 0 && IsSuffix(a, b[1..])
    ensures IsSuffix(a, b)
  {
    assert b[1..][|b| - 1 - |a|..] == b[|b| - |a|..];
  }

  lemma {:induction false} ReuseLeavesSuffix(c: Config, o: Collaborators, cands: seq<Frame>,
                                             st: PassState)
    requires forall k :: 0 <= k < |cands| ==> cands[k] in st.reg.spots
    ensures IsSuffix(ReusePass(c, o, cands, st).1, cands)
    decreases |cands|
  {
    if |cands| > 0 {
      match ReuseAttempt(c, o, st, cands[0])
      case None =>
        ReuseLeavesSuffix(c, o, cands[1..], st);
        SuffixOfTail(ReusePass(c, o, cands[1..], st).1, cands);
      case Some(next) =>
        if LowestMsMsCount(next.precursor) < c.numMsMs {
          ReuseLeavesSuffix(c, o, cands[1..], next);
          SuffixOfTail(ReusePass(c, o, cands[1..], next).1, cands);
        } else {
          assert IsSuffix(cands[1..], cands);
        }
    }
  }

  lemma {:induction false} ReuseLeavesOnlyWhenSatisfied(c: Config, o: Collaborators,
                                                        cands: seq<Frame>, st: PassState)
    requires forall k :: 0 <= k < |cands| ==> cands[k] in st.reg.spots
    ensures var r := ReusePass(c, o, cands, st);
            r.1 != [] ==> LowestMsMsCount(r.0.precursor) >= c.numMsMs
    decreases |cands|
  {
    if |cands| > 0 {
      match ReuseAttempt(c, o, st, cands[0])
      case None => ReuseLeavesOnlyWhenSatisfied(c, o, cands[1..], st);
      case Some(next) =>
        if LowestMsMsCount(next.precursor) < c.numMsMs {
          ReuseLeavesOnlyWhenSatisfied(c, o, cands[1..], next);
        }
    }
  }

  /** No spot is appended once the precursor is satisfied after an attempt:
      every append but the last leaves some energy under numMsMs, and a
      precursor satisfied from the start gains at most the one spot of the
      attempt after which the pass stops. */
  ghost predicate BreaksWhenSatisfied(c: Config, st: PassState, r: PassState) {
    && |st.used| <= |r.used|
    && (forall k :: |st.used| < k < |r.used| ==>
          LowestMsMsCount(PrecursorAt(st, r.used, k)) < c.numMsMs)
    && (LowestMsMsCount(st.precursor) >= c.numMsMs ==> |r.used| <= |st.used| + 1)
  }

  /** The break of the reuse pass: it goes on only while some energy is
      under numMsMs after the last attempt. */
  lemma {:induction false} ReuseBreaksWhenSatisfied(c: Config, o: Collaborators,
                                                    cands: seq<Frame>, st: PassState)
    requires forall k :: 0 <= k < |cands| ==> cands[k] in st.reg.spots
    ensures BreaksWhenSatisfied(c, st, ReusePass(c, o, cands, st).0)
    decreases |cands|
  {
    if |cands| == 0 {
      assert ReusePass(c, o, cands, st).0 == st;
    } else {
      match ReuseAttempt(c, o, st, cands[0])
      case None =>
        ReuseBreaksWhenSatisfied(c, o, cands[1..], st);
        assert ReusePass(c, o, cands, st) == ReusePass(c, o, cands[1..], st);
      case Some(next) =>
        if LowestMsMsCount(next.precursor) < c.numMsMs {
          ReuseBreaksWhenSatisfied(c, o, cands[1..], next);
        }
        AttemptBreaks(c, o, cands, st, next);
    }
  }

  /** The break, one attempted candidate at a time. */
  lemma AttemptBreaks(c: Config, o: Collaborators, cands: seq<Frame>, st: PassState,
                      next: PassState)
    requires |cands| > 0 && forall k :: 0 <= k < |cands| ==> cands[k] in st.reg.spots
    requires ReuseAttempt(c, o, st, cands[0]) == Some(next)
    requires LowestMsMsCount(next.precursor) < c.numMsMs ==>
               BreaksWhenSatisfied(c, next, ReusePass(c, o, cands[1..], next).0)
    ensures BreaksWhenSatisfied(c, st, ReusePass(c, o, cands, st).0)
  {
    AttemptGrowsByOne(c, o, st, cands[0]);
    if LowestMsMsCount(next.precursor) < c.numMsMs {
      var r := ReusePass(c, o, cands[1..], next).0;
      assert ReusePass(c, o, cands, st).0 == r;
      ReuseGrows(c, o, cands[1..], next);
      ContinueAfterAttempt(c, st, next, r);
    } else {
      assert ReusePass(c, o, cands, st).0 == next;
    }
  }

  /** An attempt that appended at most one spot and left the precursor
      unsatisfied, followed by a pass that breaks when satisfied. */
  lemma ContinueAfterAttempt(c: Config, st: PassState, next: PassState, r: PassState)
    requires Grows(st, next) && Grows(next, r)
    requires |next.used| <= |st.used| + 1
    requires LowestMsMsCount(next.precursor) < c.numMsMs
    requires BreaksWhenSatisfied(c, next, r)
    ensures BreaksWhenSatisfied(c, st, r)
  {
    assert r.used[..|next.used|] == next.used;
    forall k | |st.used| < k < |r.used|
      ensures LowestMsMsCount(PrecursorAt(st, r.used, k)) < c.numMsMs
    {
      PrecursorAtShift(st, next, r.used, k);
      if k == |next.used| {
        assert r.used[|next.used|..k] == [];
        assert PrecursorAt(next, r.used, k) == next.precursor;
      }
    }
    MinCountMonotone(st.precursor.acquired, next.precursor.acquired, st.precursor.ladder);
  }

  /** No two spots of the list at the same energy are too close. */
  ghost predicate SpreadOut(o: Collaborators, used: seq<UsedSpot>, d: int) {
    forall i, j :: 0 <= i < j < |used| && used[i].energy == used[j].energy ==>
      o.farEnough(used[i].info, used[j].info, d)
  }

  /** Appending a spot far enough from the feature's spots at its energy keeps
      the list spread out. */
  lemma AppendKeepsSpread(o: Collaborators, used: seq<UsedSpot>, u: UsedSpot, d: int)
    requires SpreadOut(o, used, d)
    requires FarFromSameEnergy(o, used, u.info, u.energy, d)
    ensures SpreadOut(o, used + [u], d)
  {
  }

  /** With honest helpers the reuse pass keeps the feature's spots at one
      energy at least the minimum distance apart. */
  lemma {:induction false} ReuseKeepsSpread(c: Config, o: Collaborators, cands: seq<Frame>,
                                            st: PassState)
    requires forall k :: 0 <= k < |cands| ==> cands[k] in st.reg.spots
    requires Honest(o)
    requires SpreadOut(o, st.used, c.minDistance)
    ensures SpreadOut(o, ReusePass(c, o, cands, st).0.used, c.minDistance)
    decreases |cands|
  {
    if |cands| > 0 {
      match ReuseAttempt(c, o, st, cands[0])
      case None => ReuseKeepsSpread(c, o, cands[1..], st);
      case Some(next) =>
        var spot := st.reg.spots[cands[0]];
        if o.fits(spot, st.precursor) {
          assert spot.energy in o.possibleEnergies(c.minDistance, st.precursor, st.used, spot.info,
                                                   c.ladder, c.numMsMs);
          AppendKeepsSpread(o, st.used, Header(spot), c.minDistance);
        }
        if LowestMsMsCount(next.precursor) < c.numMsMs {
          ReuseKeepsSpread(c, o, cands[1..], next);
        }
    }
  }

  /** With honest energy helpers the reuse pass never lets an energy go past
      numMsMs: it only adds at energies still under quota. */
  lemma {:induction false} ReuseKeepsQuota(c: Config, o: Collaborators, cands: seq<Frame>,
                                           st: PassState)
    requires forall k :: 0 <= k < |cands| ==> cands[k] in st.reg.spots
    requires Honest(o)
    requires WithinQuota(st.precursor, c.ladder, c.numMsMs)
    ensures WithinQuota(ReusePass(c, o, cands, st).0.precursor, c.ladder, c.numMsMs)
    decreases |cands|
  {
    if |cands| > 0 {
      match ReuseAttempt(c, o, st, cands[0])
      case None => ReuseKeepsQuota(c, o, cands[1..], st);
      case Some(next) =>
        if o.fits(st.reg.spots[cands[0]], st.precursor) {
          AddKeepsQuota(st, cands[0], c.ladder, c.numMsMs);
        }
        if LowestMsMsCount(next.precursor) < c.numMsMs {
          ReuseKeepsQuota(c, o, cands[1..], next);
        }
    }
  }
}

=== FILE: model.dfy ===
/** The entities the MS/MS spot assignment of the imaging acquisition task
    works on: plate positions, imaging frames, ion series, feature rows, the
    per-feature precursor with its MS/MS counters, and the spots. */
module ImagingModel {

  datatype Option<T> = None | Some(value: T)

  /** Position of a frame on the MALDI plate (MaldiSpotInfo). */
  datatype SpotInfo = SpotInfo(name: string, x: int, y: int)

  /** An imaging frame. Its spot info may be missing. */
  datatype Frame = Frame(id: nat, info: Option<SpotInfo>)

  /** One point of a feature's ion series: the frame and the intensity there. */
  datatype DataPoint = DataPoint(frame: Frame, intensity: real)

  datatype Range = Range(lower: real, upper: real)

  /** The best feature of a row, with the image data (its ion series over frames). */
  datatype Feature = Feature(id: nat, mz: real, mobility: real, mobilityRange: Range,
                             height: real, series: seq<DataPoint>)

  datatype Row = Row(averageArea: real, best: Feature)

  /** The immutable part of a precursor: which ion is isolated, and where.
      `oneOverK0` is the isolated mobility range (the adjusted range the
      precursor is built with). */
  datatype Ion = Ion(featureId: nat, mz: real, oneOverK0: Range)

  /** A precursor with its energy ladder and the energies of the MS/MS events
      already scheduled for it (one multiset entry per event). */
  datatype Precursor = Precursor(ion: Ion, ladder: seq<real>, acquired: multiset<real>)

  /** Single-spot or triple (quadrant) acquisition layout. */
  datatype Mode = Single | Triple

  /** A spot: its position, layout, the one collision energy it is fixed to,
      and the ions fragmented there. */
  datatype Spot = Spot(info: SpotInfo, mode: Mode, energy: real, ions: seq<Ion>)

  /** What the energy helpers see of a spot a feature already uses. */
  datatype UsedSpot = UsedSpot(info: SpotInfo, energy: real)

  function Header(s: Spot): UsedSpot {
    UsedSpot(s.info, s.energy)
  }

  /** Task parameters. `numScans` is the number of frames of the data file. */
  datatype Config = Config(numMsMs: nat, ladder: seq<real>, minIntensity: real,
                           minDistance: int, minChimerity: real,
                           minMobilityWidth: real, maxMobilityWidth: real,
                           mode: Mode, numScans: nat)

  /** MS/MS events one feature needs in total: numMsMs per collision energy. */
  function TotalMsMsPerFeature(c: Config): nat {
    c.numMsMs * |c.ladder|
  }

  function TotalMsMs(p: Precursor): nat {
    |p.acquired|
  }

  /** The smallest MS/MS count over the energies of a ladder (0 for an empty ladder). */
  function MinCount(acquired: multiset<real>, ladder: seq<real>): (r: nat)
    ensures forall i :: 0 <= i < |ladder| ==> r <= acquired[ladder[i]]
    ensures |ladder| > 0 ==> exists i :: 0 <= i < |ladder| && r == acquired[ladder[i]]
  {
    if |ladder| == 0 then 0
    else if |ladder| == 1 then acquired[ladder[0]]
    else
      var rest := MinCount(acquired, ladder[1..]);
      assert forall i :: 1 <= i < |ladder| ==> ladder[i] == ladder[1..][i - 1];
      if acquired[ladder[0]] <= rest then acquired[ladder[0]] else rest
  }

  function LowestMsMsCount(p: Precursor): nat {
    MinCount(p.acquired, p.ladder)
  }

  /** More events never lower the smallest count. */
  lemma MinCountMonotone(a: multiset<real>, b: multiset<real>, ladder: seq<real>)
    requires a <= b
    ensures MinCount(a, ladder) <= MinCount(b, ladder)
  {
    if |ladder| > 0 {
      var i :| 0 <= i < |ladder| && MinCount(b, ladder) == b[ladder[i]];
      assert MinCount(a, ladder) <= a[ladder[i]];
    }
  }

  /** The effect of a successful addPrecursor: the spot records the ion and the
      precursor's counter for the spot's energy goes up by one. */
  function Assign(s: Spot, p: Precursor): (r: (Spot, Precursor))
    ensures Header(r.0) == Header(s) && r.0.mode == s.mode
    ensures r.1.ion == p.ion && r.1.ladder == p.ladder
    ensures TotalMsMs(r.1) == TotalMsMs(p) + 1
  {
    (s.(ions := s.ions + [p.ion]), p.(acquired := p.acquired + multiset{s.energy}))
  }

  /** The energies of a list of used spots, as a multiset. */
  function Energies(us: seq<UsedSpot>): (r: multiset<real>)
    ensures |r| == |us|
  {
    if |us| == 0 then multiset{} else multiset{us[0].energy} + Energies(us[1..])
  }

  lemma {:induction false} EnergiesAppend(a: seq<UsedSpot>, b: seq<UsedSpot>)
    ensures Energies(a + b) == Energies(a) + Energies(b)
  {
    if |a| == 0 {
      assert a + b == b;
    } else {
      assert (a + b)[0] == a[0];
      assert (a + b)[1..] == a[1..] + b;
      EnergiesAppend(a[1..], b);
    }
  }

  /** Every scheduled energy is on the ladder and used at most `n` times. */
  ghost predicate WithinQuota(p: Precursor, ladder: seq<real>, n: nat) {
    forall e :: e in p.acquired ==> e in ladder && p.acquired[e] <= n
  }

  /** A precursor that keeps the per-energy quota stays within the task's
      total per feature, which sizes the histogram. */
  lemma {:induction false} QuotaBoundsTotal(p: Precursor, ladder: seq<real>, n: nat)
    requires WithinQuota(p, ladder, n)
    ensures TotalMsMs(p) <= n * |ladder|
  {
    MultisetBound(p.acquired, ladder, n);
  }

  lemma {:induction false} MultisetBound(m: multiset<real>, ladder: seq<real>, k: nat)
    requires forall e :: e in m ==> e in ladder && m[e] <= k
    ensures |m| <= k * |ladder|
  {
    if |ladder| == 0 {
      assert forall e :: m[e] == 0;
      assert m == multiset{};
    } else {
      var x := ladder[0];
      var rest := m[x := 0];
      SplitOff(m, x);
      assert forall e :: e in rest ==> e in ladder[1..] && rest[e] <= k by {
        forall e | e in rest
          ensures e in ladder[1..] && rest[e] <= k
        {
          assert e != x && e in m;
          assert ladder == [x] + ladder[1..];
        }
      }
      MultisetBound(rest, ladder[1..], k);
      MulSucc(k, |ladder[1..]|);
    }
  }

  /** Removing every copy of `x` removes exactly its multiplicity. */
  lemma SplitOff(m: multiset<real>, x: real)
    ensures |m| == |m[x := 0]| + m[x]
  {
    var rest := m[x := 0];
    assert forall e :: m[e] == (rest + Repeat(x, m[x]))[e];
    assert m == rest + Repeat(x, m[x]);
    RepeatCard(x, m[x]);
  }

  lemma MulSucc(k: nat, n: nat)
    ensures k * (n + 1) == k * n + k
  {
  }

  function Repeat(x: real, n: nat): (r: multiset<real>)
    ensures forall e :: e != x ==> r[e] == 0
    ensures r[x] == n
  {
    if n == 0 then multiset{} else Repeat(x, n - 1) + multiset{x}
  }

  lemma {:induction false} RepeatCard(x: real, n: nat)
    ensures |Repeat(x, n)| == n
  {
    if n > 0 {
      RepeatCard(x, n - 1);
    }
  }
}

=== FILE: newspots.dfy ===
/** The create pass of the task (createNewMsMsSpots): new spots are made at
    frames no spot uses yet, walking the feature's series from the most
    intense point down. */
module NewSpots {
  import opened ImagingModel
  import opened Collaborators
  import opened SpotRegistry
  import opened ExistingSpots
  import opened Candidates

  /** The create pass as written hands a literal 3, not numMsMs, to
      getBestCollisionEnergyForSpot as its per-energy limit. */
  const CreateQuota: nat := 3

  /** What one candidate of the create pass does: move on, end the pass, or
      create a spot at its frame (whether or not the precursor then fits). */
  datatype Step = Skip | Stop | Created(next: PassState)

  /** The energy the helper proposes for a new spot at position `info`, if any. */
  function ProposedEnergy(c: Config, o: Collaborators, quota: nat, st: PassState, info: SpotInfo)
    : Option<real>
  {
    o.bestEnergy(c.minDistance, st.precursor, st.used, info, c.ladder, quota)
  }

  /** The five gates of the create loop, in the order the source tries them:
      no spot at the frame yet, spot info present, intensity at or above the
      floor, an energy proposed under `quota`, and the purity check. */
  predicate PassesGates(c: Config, o: Collaborators, quota: nat, series: seq<DataPoint>,
                        idx: int, st: PassState)
    requires 0 <= idx < |series|
  {
    var f := series[idx].frame;
    && f !in st.reg.spots
    && f.info.Some?
    && series[idx].intensity >= c.minIntensity
    && ProposedEnergy(c, o, quota, st, f.info.value).Some?
    && CheckChimerityScore(o, c.minChimerity, st.precursor.ion, f)
  }

  /** One candidate of the create pass: the series point at index `idx`, with
      `quota` as the limit handed to the energy helper. A spot is created
      exactly when every gate passes; the precursor is added to it (and the
      spot to the feature's list) exactly when the precursor fits. */
  function CreateAttempt(c: Config, o: Collaborators, quota: nat, series: seq<DataPoint>,
                         idx: int, st: PassState): (r: Step)
    requires 0 <= idx < |series|
    ensures r.Stop? <==> (series[idx].frame !in st.reg.spots && series[idx].frame.info.Some?
                          && series[idx].intensity < c.minIntensity)
    ensures r.Created? <==> PassesGates(c, o, quota, series, idx, st)
    ensures r.Created? ==>
              var f := series[idx].frame;
              var e := ProposedEnergy(c, o, quota, st, f.info.value).value;
              var made := Spot(f.info.value, c.mode, e, []);
              && r.next.reg.log == st.reg.log + [f]
              && f in r.next.reg.spots
              && Header(r.next.reg.spots[f]) == Header(made)
              && r.next.reg.spots[f].mode == c.mode
              && (forall g :: g in r.next.reg.spots <==> g in st.reg.spots || g == f)
              && (forall g :: g in st.reg.spots ==> r.next.reg.spots[g] == st.reg.spots[g])
              && Grows(st, r.next)
              && (r.next.used == st.used + [Header(made)] <==> o.fits(made, st.precursor))
              && (!o.fits(made, st.precursor) ==>
                    r.next.used == st.used && r.next.precursor == st.precursor
                    && r.next.reg.spots[f] == made)
              && (Valid(st.reg) ==> Valid(r.next.reg))
  {
    var frame := series[idx].frame;
    if frame in st.reg.spots then Skip
    else if frame.info.None? then Skip
    else if series[idx].intensity < c.minIntensity then Stop
    else
      match ProposedEnergy(c, o, quota, st, frame.info.value)
      case None => Skip
      case Some(energy) =>
        if !CheckChimerityScore(o, c.minChimerity, st.precursor.ion, frame) then Skip
        else
          var (reg, spot) := ComputeIfAbsent(st.reg, frame, Spot(frame.info.value, c.mode, energy, []));
          var st1 := st.(reg := reg);
          GrowsReflexive(st1);
          if o.fits(spot, st.precursor) then Created(AddToSpot(st1, frame)) else Created(st1)
  }

  /** The create loop over the intensity-ordered indices. It runs while the
      precursor has fewer MS/MS events than numMsMs times the number of
      energies, and ends at the first usable frame below the intensity floor. */
  function CreatePass(c: Config, o: Collaborators, quota: nat, series: seq<DataPoint>, order: seq<int>,
                      st: PassState): (r: PassState)
    requires forall k :: 0 <= k < |order| ==> 0 <= order[k] < |series|
    ensures Extends(st.reg, r.reg)
    decreases |order|
  {
    if |order| == 0 || TotalMsMs(st.precursor) >= TotalMsMsPerFeature(c) then st
    else
      match CreateAttempt(c, o, quota, series, order[0], st)
      case Skip => CreatePass(c, o, quota, series, order[1..], st)
      case Stop => st
      case Created(next) =>
        var r := CreatePass(c, o, quota, series, order[1..], next);
        ExtendsTransitive(st.reg, next.reg, r.reg);
        r
  }

  /** The create pass keeps the registry valid. */
  lemma {:induction false} CreateKeepsValid(c: Config, o: Collaborators, quota: nat, series: seq<DataPoint>,
                                            order: seq<int>, st: PassState)
    requires forall k :: 0 <= k < |order| ==> 0 <= order[k] < |series|
    requires Valid(st.reg)
    ensures Valid(CreatePass(c, o, quota, series, order, st).reg)
    decreases |order|
  {
    if |order| > 0 && TotalMsMs(st.precursor) < TotalMsMsPerFeature(c) {
      match CreateAttempt(c, o, quota, series, order[0], st)
      case Skip => CreateKeepsValid(c, o, quota, series, order[1..], st);
      case Stop =>
      case Created(next) => CreateKeepsValid(c, o, quota, series, order[1..], next);
    }
  }

  /** The create pass only appends to the feature's list, and the counters grow
      by exactly the energies of the appended spots. */
  lemma {:induction false} CreateGrows(c: Config, o: Collaborators, quota: nat, series: seq<DataPoint>,
                                       order: seq<int>, st: PassState)
    requires forall k :: 0 <= k < |order| ==> 0 <= order[k] < |series|
    ensures Grows(st, CreatePass(c, o, quota, series, order, st))
    decreases |order|
  {
    if |order| == 0 || TotalMsMs(st.precursor) >= TotalMsMsPerFeature(c) {
      GrowsReflexive(st);
    } else {
      match CreateAttempt(c, o, quota, series, order[0], st)
      case Skip => CreateGrows(c, o, quota, series, order[1..], st);
      case Stop => GrowsReflexive(st);
      case Created(next) =>
        CreateGrows(c, o, quota, series, order[1..], next);
        GrowsTransitive(st, next, CreatePass(c, o, quota, series, order[1..], next));
    }
  }

  /** `after` holds every spot of `before` unchanged, its creation log extends
      the old one, and each new key is a frame of the candidates with spot info,
      at or above the floor, passing the purity gate, whose spot carries the
      frame's own spot info and the task's layout. */
  ghost predicate CreatedOnlyAtFreshFrames(c: Config, o: Collaborators, ion: Ion,
                                           series: seq<DataPoint>, order: seq<int>,
                                           before: Registry, after: Registry) {
    && |before.log| <= |after.log| && after.log[..|before.log|] == before.log
    && (forall g :: g in before.spots ==> g in after.spots && after.spots[g] == before.spots[g])
    && (forall g :: g in after.spots && g !in before.spots ==>
          g.info.Some? && after.spots[g].info == g.info.value && after.spots[g].mode == c.mode
          && IsFloorCandidate(c, o, ion, series, order, g))
  }

  ghost predicate IsFloorCandidate(c: Config, o: Collaborators, ion: Ion,
                                   series: seq<DataPoint>, order: seq<int>, g: Frame) {
    exists k :: 0 <= k < |order| && 0 <= order[k] < |series| && series[order[k]].frame == g
      && series[order[k]].intensity >= c.minIntensity
      && CheckChimerityScore(o, c.minChimerity, ion, g)
  }

  /** The create pass never changes a spot that existed before it, and every
      spot it creates sits at a fresh frame that qualified: spot info present,
      intensity at or above the floor, purity gate passed. */
  lemma {:induction false} CreateOnlyAtFreshFrames(c: Config, o: Collaborators, quota: nat,
                                                   series: seq<DataPoint>, order: seq<int>,
                                                   st: PassState)
    requires forall k :: 0 <= k < |order| ==> 0 <= order[k] < |series|
    ensures CreatedOnlyAtFreshFrames(c, o, st.precursor.ion, series, order, st.reg,
                                     CreatePass(c, o, quota, series, order, st).reg)
    decreases |order|
  {
    var r := CreatePass(c, o, quota, series, order, st).reg;
    if |order| == 0 || TotalMsMs(st.precursor) >= TotalMsMsPerFeature(c) {
      assert r == st.reg;
    } else {
      match CreateAttempt(c, o, quota, series, order[0], st)
      case Skip =>
        CreateOnlyAtFreshFrames(c, o, quota, series, order[1..], st);
        LiftCandidates(c, o, st.precursor.ion, series, order, st.reg, r);
      case Stop =>
        assert r == st.reg;
      case Created(next) =>
        var f := series[order[0]].frame;
        assert IsFloorCandidate(c, o, st.precursor.ion, series, order, f) by {
          assert series[order[0]].frame == f;
        }
        CreateOnlyAtFreshFrames(c, o, quota, series, order[1..], next);
        CreateGrows(c, o, quota, series, order[1..], next);
        LiftCandidates(c, o, st.precursor.ion, series, order, next.reg, r);
        ComposeFresh(c, o, st.precursor.ion, series, order, st.reg, next.reg, r, f);
    }
  }

  /** A qualifying frame among the later candidates qualifies among all of them. */
  lemma LiftCandidates(c: Config, o: Collaborators, ion: Ion, series: seq<DataPoint>,
                       order: seq<int>, before: Registry, after: Registry)
    requires |order| > 0
    requires CreatedOnlyAtFreshFrames(c, o, ion, series, order[1..], before, after)
    ensures CreatedOnlyAtFreshFrames(c, o, ion, series, order, before, after)
  {
    forall g | g in after.spots && g !in before.spots
      ensures IsFloorCandidate(c, o, ion, series, order, g)
    {
      assert IsFloorCandidate(c, o, ion, series, order[1..], g);
      var k :| 0 <= k < |order[1..]| && 0 <= order[1..][k] < |series|
               && series[order[1..][k]].frame == g
               && series[order[1..][k]].intensity >= c.minIntensity
               && CheckChimerityScore(o, c.minChimerity, ion, g);
      assert order[1..][k] == order[k + 1];
    }
  }

  /** One created spot followed by the rest of the pass. */
  lemma ComposeFresh(c: Config, o: Collaborators, ion: Ion, series: seq<DataPoint>,
                     order: seq<int>, a: Registry, b: Registry, r: Registry, f: Frame)
    requires f !in a.spots && f.info.Some?
    requires IsFloorCandidate(c, o, ion, series, order, f)
    requires b.log == a.log + [f]
    requires f in b.spots && b.spots[f].info == f.info.value && b.spots[f].mode == c.mode
    requires forall g :: g in b.spots <==> g in a.spots || g == f
    requires forall g :: g in a.spots ==> b.spots[g] == a.spots[g]
    requires CreatedOnlyAtFreshFrames(c, o, ion, series, order, b, r)
    requires Extends(b, r)
    ensures CreatedOnlyAtFreshFrames(c, o, ion, series, order, a, r)
  {
    assert r.log[..|a.log|] == r.log[..|b.log|][..|a.log|];
    forall g | g in r.spots && g !in a.spots
      ensures g.info.Some? && r.spots[g].info == g.info.value && r.spots[g].mode == c.mode
              && IsFloorCandidate(c, o, ion, series, order, g)
    {
      if g == f {
        assert r.spots[f] == b.spots[f];
      }
    }
  }

  /** The loop bound: a pass that starts at or above numMsMs times the number
      of energies does nothing, and one that starts below it ends at most
      there, because each candidate adds at most one MS/MS event. */
  lemma {:induction false} CreateRespectsTotal(c: Config, o: Collaborators, quota: nat,
                                               series: seq<DataPoint>, order: seq<int>,
                                               st: PassState)
    requires forall k :: 0 <= k < |order| ==> 0 <= order[k] < |series|
    ensures TotalMsMs(st.precursor) >= TotalMsMsPerFeature(c) ==>
              CreatePass(c, o, quota, series, order, st) == st
    ensures TotalMsMs(st.precursor) <= TotalMsMsPerFeature(c) ==>
              TotalMsMs(CreatePass(c, o, quota, series, order, st).precursor) <= TotalMsMsPerFeature(c)
    decreases |order|
  {
    if |order| > 0 && TotalMsMs(st.precursor) < TotalMsMsPerFeature(c) {
      match CreateAttempt(c, o, quota, series, order[0], st)
      case Skip => CreateRespectsTotal(c, o, quota, series, order[1..], st);
      case Stop =>
      case Created(next) =>
        assert |next.used| <= |st.used| + 1;
        assert TotalMsMs(next.precursor) == TotalMsMs(st.precursor) + (|next.used| - |st.used|);
        CreateRespectsTotal(c, o, quota, series, order[1..], next);
    }
  }

  /** With an honest energy helper every spot the create pass makes is fixed
      to an energy of the task's ladder. */
  lemma {:induction false} CreateEnergiesOnLadder(c: Config, o: Collaborators, quota: nat,
                                                  series: seq<DataPoint>, order: seq<int>,
                                                  st: PassState)
    requires forall k :: 0 <= k < |order| ==> 0 <= order[k] < |series|
    requires Honest(o)
    ensures EnergiesOnLadder(st.reg, CreatePass(c, o, quota, series, order, st).reg, c.ladder)
    decreases |order|
  {
    var r := CreatePass(c, o, quota, series, order, st).reg;
    if |order| > 0 && TotalMsMs(st.precursor) < TotalMsMsPerFeature(c) {
      match CreateAttempt(c, o, quota, series, order[0], st)
      case Skip => CreateEnergiesOnLadder(c, o, quota, series, order[1..], st);
      case Stop =>
      case Created(next) =>
        CreateEnergiesOnLadder(c, o, quota, series, order[1..], next);
        var f := series[order[0]].frame;
        assert next.reg.spots[f].energy in c.ladder;
        assert r.spots[f].energy == next.reg.spots[f].energy;
    }
  }

  /** Every spot at a key `before` did not have carries an energy of the ladder. */
  ghost predicate EnergiesOnLadder(before: Registry, after: Registry, ladder: seq<real>) {
    forall g :: g in after.spots && g !in before.spots ==> after.spots[g].energy in ladder
  }

  /** With an honest energy helper the create pass keeps every ladder energy
      of the precursor at most `n` times when the limit `quota` it hands the
      helper is at most `n`: each spot it adds the precursor to is at an
      energy the helper proposed under that limit. */
  lemma {:induction false} CreateKeepsQuota(c: Config, o: Collaborators, quota: nat, n: nat,
                                            series: seq<DataPoint>, order: seq<int>,
                                            st: PassState)
    requires forall k :: 0 <= k < |order| ==> 0 <= order[k] < |series|
    requires Honest(o)
    requires quota <= n && WithinQuota(st.precursor, c.ladder, n)
    ensures WithinQuota(CreatePass(c, o, quota, series, order, st).precursor, c.ladder, n)
    decreases |order|
  {
    if |order| > 0 && TotalMsMs(st.precursor) < TotalMsMsPerFeature(c) {
      match CreateAttempt(c, o, quota, series, order[0], st)
      case Skip => CreateKeepsQuota(c, o, quota, n, series, order[1..], st);
      case Stop =>
      case Created(next) =>
        CreatedKeepsQuota(c, o, quota, n, series, order[0], st);
        CreateKeepsQuota(c, o, quota, n, series, order[1..], next);
    }
  }

  /** One created spot keeps the quota. */
  lemma CreatedKeepsQuota(c: Config, o: Collaborators, quota: nat, n: nat, series: seq<DataPoint>,
                          idx: int, st: PassState)
    requires 0 <= idx < |series|
    requires Honest(o)
    requires quota <= n && WithinQuota(st.precursor, c.ladder, n)
    requires CreateAttempt(c, o, quota, series, idx, st).Created?
    ensures WithinQuota(CreateAttempt(c, o, quota, series, idx, st).next.precursor, c.ladder, n)
  {
    var next := CreateAttempt(c, o, quota, series, idx, st).next;
    var f := series[idx].frame;
    var e := ProposedEnergy(c, o, quota, st, f.info.value).value;
    assert e in c.ladder && st.precursor.acquired[e] < quota;
    if |next.used| > |st.used| {
      assert next.used[|st.used|..] == [UsedSpot(f.info.value, e)];
      assert Energies([UsedSpot(f.info.value, e)]) == multiset{e};
    } else {
      assert next.precursor == st.precursor;
    }
  }

  /** With an honest energy helper the create pass keeps the feature's spots
      at one energy at least the minimum distance apart. */
  lemma {:induction false} CreateKeepsSpread(c: Config, o: Collaborators, quota: nat,
                                             series: seq<DataPoint>, order: seq<int>,
                                             st: PassState)
    requires forall k :: 0 <= k < |order| ==> 0 <= order[k] < |series|
    requires Honest(o)
    requires SpreadOut(o, st.used, c.minDistance)
    ensures SpreadOut(o, CreatePass(c, o, quota, series, order, st).used, c.minDistance)
    decreases |order|
  {
    if |order| > 0 && TotalMsMs(st.precursor) < TotalMsMsPerFeature(c) {
      match CreateAttempt(c, o, quota, series, order[0], st)
      case Skip => CreateKeepsSpread(c, o, quota, series, order[1..], st);
      case Stop =>
      case Created(next) =>
        var f := series[order[0]].frame;
        var e := ProposedEnergy(c, o, quota, st, f.info.value).value;
        if |next.used| > |st.used| {
          assert FarFromSameEnergy(o, st.used, f.info.value, e, c.minDistance);
          AppendKeepsSpread(o, st.used, UsedSpot(f.info.value, e), c.minDistance);
        }
        CreateKeepsSpread(c, o, quota, series, order[1..], next);
    }
  }

  /** The configuration of the witness below: one MS/MS per energy, energies
      20 and 40, no intensity or purity floor. */
  function WitnessConfig(): Config {
    Config(1, [20.0, 40.0], 0.0, 0, 0.0, 0.0, 0.0, Single, 10)
  }

  /** Honest helpers of the witness: every precursor fits, every position is
      far enough, and the energy helper proposes the first ladder energy when
      it is still under the limit it is given. */
  function WitnessHelpers(): Collaborators {
    Collaborators((m, r, lo, hi) => r, (sp, p) => true, (f, ion) => 1.0,
                  (d: int, p: Precursor, us: seq<UsedSpot>, info: SpotInfo, l: seq<real>, n: int) =>
                    if |l| > 0 && p.acquired[l[0]] < n then Some(l[0]) else None,
                  (d, p, us, info, l, n) => [], (a, b, d) => true)
  }

  /** Two frames of the plate with spot info, both above the floor. */
  function WitnessSeries(): seq<DataPoint> {
    [DataPoint(Frame(0, Some(SpotInfo("A1", 0, 0))), 2.0),
     DataPoint(Frame(1, Some(SpotInfo("A2", 1, 0))), 1.0)]
  }

  /** The empty registry and a precursor with nothing scheduled yet. */
  function WitnessStart(): PassState {
    PassState(Registry([], map[]), [],
              Precursor(Ion(0, 100.0, Range(0.0, 1.0)), [20.0, 40.0], multiset{}))
  }

  lemma WitnessHelpersHonest()
    ensures Honest(WitnessHelpers())
  {
    var o := WitnessHelpers();
    forall d, p, us, info, ladder, n | o.bestEnergy(d, p, us, info, ladder, n).Some?
      ensures o.bestEnergy(d, p, us, info, ladder, n).value in ladder
      ensures p.acquired[o.bestEnergy(d, p, us, info, ladder, n).value] < n
    {
      assert o.bestEnergy(d, p, us, info, ladder, n).value == ladder[0];
    }
  }

  /** Under `quota`, the first witness frame gets a new spot at energy 20 and
      the precursor is added to it. */
  lemma WitnessFirstFrame(quota: nat)
    requires quota >= 1
    ensures CreateAttempt(WitnessConfig(), WitnessHelpers(), quota, WitnessSeries(), 0,
                          WitnessStart()).Created?
    ensures CreateAttempt(WitnessConfig(), WitnessHelpers(), quota, WitnessSeries(), 0,
                          WitnessStart()).next.precursor.acquired == multiset{20.0}
  {
    var c, o, series, st := WitnessConfig(), WitnessHelpers(), WitnessSeries(), WitnessStart();
    assert ProposedEnergy(c, o, quota, st, series[0].frame.info.value) == Some(20.0);
    assert PassesGates(c, o, quota, series, 0, st);
    var next := CreateAttempt(c, o, quota, series, 0, st).next;
    assert next.used == [UsedSpot(series[0].frame.info.value, 20.0)];
    assert next.used[0..] == next.used;
  }

  /** The second witness frame gets a new spot at energy 20 again when the
      limit is 3, and none when the limit is numMsMs = 1. */
  lemma WitnessSecondFrame(quota: nat, st: PassState)
    requires st.reg.spots.Keys == {WitnessSeries()[0].frame}
    requires st.precursor.ladder == [20.0, 40.0] && st.precursor.acquired == multiset{20.0}
    ensures quota == 3 ==>
              && CreateAttempt(WitnessConfig(), WitnessHelpers(), quota, WitnessSeries(), 1, st).Created?
              && CreateAttempt(WitnessConfig(), WitnessHelpers(), quota, WitnessSeries(), 1, st)
                   .next.precursor.acquired == multiset{20.0, 20.0}
    ensures quota == 1 ==>
              CreateAttempt(WitnessConfig(), WitnessHelpers(), quota, WitnessSeries(), 1, st).Skip?
  {
    var c, o, series := WitnessConfig(), WitnessHelpers(), WitnessSeries();
    assert series[1].frame != series[0].frame;
    if quota == 3 {
      assert ProposedEnergy(c, o, quota, st, series[1].frame.info.value) == Some(20.0);
      assert PassesGates(c, o, quota, series, 1, st);
      var next := CreateAttempt(c, o, quota, series, 1, st).next;
      assert next.used[|st.used|..] == [UsedSpot(series[1].frame.info.value, 20.0)];
    } else if quota == 1 {
      assert ProposedEnergy(c, o, quota, st, series[1].frame.info.value) == None;
    }
  }

  /** The pass as written over the two witness frames schedules energy 20 twice. */
  lemma WitnessAsWritten()
    ensures CreatePass(WitnessConfig(), WitnessHelpers(), CreateQuota, WitnessSeries(), [0, 1],
                       WitnessStart()).precursor.acquired == multiset{20.0, 20.0}
  {
    var c, o, series, st := WitnessConfig(), WitnessHelpers(), WitnessSeries(), WitnessStart();
    WitnessFirstStep();
    var s1 := CreateAttempt(c, o, CreateQuota, series, 0, st).next;
    WitnessSecondFrame(CreateQuota, s1);
    WitnessLastStep(s1);
  }

  /** The first witness frame is created and the pass goes on with the second. */
  lemma WitnessFirstStep()
    ensures CreateAttempt(WitnessConfig(), WitnessHelpers(), CreateQuota, WitnessSeries(), 0,
                          WitnessStart()).Created?
    ensures var s1 := CreateAttempt(WitnessConfig(), WitnessHelpers(), CreateQuota,
                                    WitnessSeries(), 0, WitnessStart()).next;
            && s1.reg.spots.Keys == {WitnessSeries()[0].frame}
            && s1.precursor.ladder == [20.0, 40.0] && s1.precursor.acquired == multiset{20.0}
            && CreatePass(WitnessConfig(), WitnessHelpers(), CreateQuota, WitnessSeries(), [0, 1],
                          WitnessStart())
               == CreatePass(WitnessConfig(), WitnessHelpers(), CreateQuota, WitnessSeries(), [1], s1)
  {
    var c, o, series, st := WitnessConfig(), WitnessHelpers(), WitnessSeries(), WitnessStart();
    WitnessFirstFrame(CreateQuota);
    assert TotalMsMs(st.precursor) == 0;
    assert [0, 1][1..] == [1];
  }

  /** The pass over the second frame alone ends after its attempt. */
  lemma WitnessLastStep(s1: PassState)
    requires TotalMsMs(s1.precursor) == 1
    requires CreateAttempt(WitnessConfig(), WitnessHelpers(), CreateQuota, WitnessSeries(), 1,
                           s1).Created?
    ensures CreatePass(WitnessConfig(), WitnessHelpers(), CreateQuota, WitnessSeries(), [1], s1)
            == CreateAttempt(WitnessConfig(), WitnessHelpers(), CreateQuota, WitnessSeries(), 1,
                             s1).next
  {
    assert [1][1..] == [];
  }

  /** The literal 3 of the create pass lets one energy go past numMsMs: with
      honest helpers and a precursor that starts empty, the pass as written
      schedules energy 20 twice although numMsMs is 1, while the same pass
      with numMsMs as the limit schedules every energy at most once. */
  lemma LiteralQuotaOvershoots()
    ensures Honest(WitnessHelpers())
    ensures WithinQuota(WitnessStart().precursor, WitnessConfig().ladder, WitnessConfig().numMsMs)
    ensures CreatePass(WitnessConfig(), WitnessHelpers(), CreateQuota, WitnessSeries(), [0, 1],
                       WitnessStart()).precursor.acquired[20.0] == 2
    ensures !WithinQuota(CreatePass(WitnessConfig(), WitnessHelpers(), CreateQuota,
                                    WitnessSeries(), [0, 1], WitnessStart()).precursor,
                         WitnessConfig().ladder, WitnessConfig().numMsMs)
    ensures WithinQuota(CreatePass(WitnessConfig(), WitnessHelpers(), WitnessConfig().numMsMs,
                                   WitnessSeries(), [0, 1], WitnessStart()).precursor,
                        WitnessConfig().ladder, WitnessConfig().numMsMs)
  {
    WitnessHelpersHonest();
    WitnessAsWritten();
    CreateKeepsQuota(WitnessConfig(), WitnessHelpers(), WitnessConfig().numMsMs,
                     WitnessConfig().numMsMs, WitnessSeries(), [0, 1], WitnessStart());
  }

  /** The create pass with `continue` where the source has `break`: every
      candidate below the floor is passed over instead of ending the pass. */
  function CreatePassSkippingFloor(c: Config, o: Collaborators, quota: nat, series: seq<DataPoint>,
                                   order: seq<int>, st: PassState): (r: PassState)
    requires forall k :: 0 <= k < |order| ==> 0 <= order[k] < |series|
    decreases |order|
  {
    if |order| == 0 || TotalMsMs(st.precursor) >= TotalMsMsPerFeature(c) then st
    else
      match CreateAttempt(c, o, quota, series, order[0], st)
      case Skip => CreatePassSkippingFloor(c, o, quota, series, order[1..], st)
      case Stop => CreatePassSkippingFloor(c, o, quota, series, order[1..], st)
      case Created(next) => CreatePassSkippingFloor(c, o, quota, series, order[1..], next)
  }

  /** Below the floor, the skipping variant changes nothing. */
  lemma {:induction false} SkippingBelowFloorIsIdle(c: Config, o: Collaborators, quota: nat,
                                                   series: seq<DataPoint>, order: seq<int>,
                                                   st: PassState)
    requires forall k :: 0 <= k < |order| ==> 0 <= order[k] < |series|
    requires forall k :: 0 <= k < |order| ==> series[order[k]].intensity < c.minIntensity
    ensures CreatePassSkippingFloor(c, o, quota, series, order, st) == st
    decreases |order|
  {
    if |order| > 0 && TotalMsMs(st.precursor) < TotalMsMsPerFeature(c) {
      assert !CreateAttempt(c, o, quota, series, order[0], st).Created?;
      SkippingBelowFloorIsIdle(c, o, quota, series, order[1..], st);
    }
  }

  /** Because the candidates come in descending intensity, ending the pass at
      the first usable frame below the floor loses nothing: every later frame
      is below the floor too, so skipping them all gives the same result. */
  lemma {:induction false} BreakAgreesWithSkipping(c: Config, o: Collaborators, quota: nat,
                                                  series: seq<DataPoint>, order: seq<int>,
                                                  st: PassState)
    requires forall k :: 0 <= k < |order| ==> 0 <= order[k] < |series|
    requires Descending(series, order)
    ensures CreatePass(c, o, quota, series, order, st) == CreatePassSkippingFloor(c, o, quota, series, order, st)
    decreases |order|
  {
    if |order| > 0 && TotalMsMs(st.precursor) < TotalMsMsPerFeature(c) {
      assert Descending(series, order[1..]);
      match CreateAttempt(c, o, quota, series, order[0], st)
      case Skip => BreakAgreesWithSkipping(c, o, quota, series, order[1..], st);
      case Stop =>
        assert forall k :: 0 <= k < |order[1..]| ==>
                 series[order[1..][k]].intensity < c.minIntensity by {
          forall k | 0 <= k < |order[1..]|
            ensures series[order[1..][k]].intensity < c.minIntensity
          {
            assert order[1..][k] == order[k + 1];
          }
        }
        SkippingBelowFloorIsIdle(c, o, quota, series, order[1..], st);
      case Created(next) => BreakAgreesWithSkipping(c, o, quota, series, order[1..], next);
    }
  }
}

=== FILE: registry.dfy ===
/** The frame-to-spot map of the task. Beside the map it keeps the order in
    which frames became keys; a valid registry lists every key exactly once,
    and every spot carries the spot info of the frame it is keyed by. */
module SpotRegistry {
  import opened ImagingModel

  datatype Registry = Registry(log: seq<Frame>, spots: map<Frame, Spot>)

  function Empty(): Registry {
    Registry([], map[])
  }

  ghost predicate Valid(r: Registry) {
    && (forall i, j :: 0 <= i < j < |r.log| ==> r.log[i] != r.log[j])
    && (forall f :: f in r.spots <==> f in r.log)
    && (forall f :: f in r.spots ==> f.info == Some(r.spots[f].info))
  }

  /** `later` keeps every key of `earlier`, in the same creation order, and
      every spot's position and collision energy are unchanged. */
  ghost predicate Extends(earlier: Registry, later: Registry) {
    && |earlier.log| <= |later.log|
    && later.log[..|earlier.log|] == earlier.log
    && (forall f :: f in earlier.spots ==>
          f in later.spots && Header(later.spots[f]) == Header(earlier.spots[f]))
  }

  lemma ExtendsTransitive(a: Registry, b: Registry, c: Registry)
    requires Extends(a, b) && Extends(b, c)
    ensures Extends(a, c)
  {
    assert c.log[..|a.log|] == c.log[..|b.log|][..|a.log|];
  }

  /** Map.computeIfAbsent: the spot at `f`, creating `created` there if `f` is
      not yet a key. */
  function ComputeIfAbsent(r: Registry, f: Frame, created: Spot): (res: (Registry, Spot))
    ensures f in res.0.spots && res.0.spots[f] == res.1
    ensures f in r.spots ==> res == (r, r.spots[f])
    ensures f !in r.spots ==> res.1 == created && res.0.log == r.log + [f]
    ensures forall g :: g in r.spots ==> g in res.0.spots && res.0.spots[g] == r.spots[g]
    ensures forall g :: g in res.0.spots ==> g in r.spots || g == f
    ensures Valid(r) && (f in r.spots || f.info == Some(created.info)) ==> Valid(res.0)
  {
    if f in r.spots then (r, r.spots[f])
    else (Registry(r.log + [f], r.spots[f := created]), created)
  }

  /** Replaces the spot at an existing key by an updated spot with the same
      position and collision energy (a spot mutated in place). */
  function Update(r: Registry, f: Frame, s: Spot): (res: Registry)
    requires f in r.spots && Header(s) == Header(r.spots[f])
    ensures res.log == r.log && res.spots.Keys == r.spots.Keys
    ensures Extends(r, res)
    ensures res.spots[f] == s
    ensures forall g :: g in r.spots && g != f ==> res.spots[g] == r.spots[g]
    ensures Valid(r) ==> Valid(res)
  {
    Registry(r.log, r.spots[f := s])
  }
}

=== FILE: sorting.dfy ===
/** A stable insertion sort over sequences, parameterised by a total preorder.
    The task sorts three things with it: feature rows by average area, the
    points of an ion series by intensity, and the final spot list by plate
    coordinates. */
module Sorting {

  ghost predicate Total<T(!new)>(le: (T, T) -> bool) {
    forall a, b :: le(a, b) || le(b, a)
  }

  ghost predicate Transitive<T(!new)>(le: (T, T) -> bool) {
    forall a, b, c :: le(a, b) && le(b, c) ==> le(a, c)
  }

  ghost predicate TotalPreorder<T(!new)>(le: (T, T) -> bool) {
    Total(le) && Transitive(le)
  }

  /** Every earlier element is `le` every later one. */
  ghost predicate SortedBy<T>(s: seq<T>, le: (T, T) -> bool) {
    forall i, j :: 0 <= i < j < |s| ==> le(s[i], s[j])
  }

  /** Inserts `x` in front of the first element it is `le`, so that equal
      elements keep their relative order. */
  function Insert<T(!new)>(x: T, s: seq<T>, le: (T, T) -> bool): (r: seq<T>)
    requires TotalPreorder(le)
    requires SortedBy(s, le)
    ensures multiset(r) == multiset(s) + multiset{x}
    ensures SortedBy(r, le)
  {
    if |s| == 0 || le(x, s[0]) then
      [x] + s
    else
      var tail := Insert(x, s[1..], le);
      InsertBehindHead(x, s, tail, le);
      [s[0]] + tail
  }

  /** When `x` goes behind the head of `s`, the head stays in front. */
  lemma InsertBehindHead<T(!new)>(x: T, s: seq<T>, tail: seq<T>, le: (T, T) -> bool)
    requires TotalPreorder(le)
    requires SortedBy(s, le) && SortedBy(tail, le)
    requires |s| > 0 && !le(x, s[0])
    requires multiset(tail) == multiset(s[1..]) + multiset{x}
    ensures multiset([s[0]] + tail) == multiset(s) + multiset{x}
    ensures SortedBy([s[0]] + tail, le)
  {
    var head := s[0];
    forall k | 0 <= k < |tail|
      ensures le(head, tail[k])
    {
      assert tail[k] in multiset(tail);
      if tail[k] != x {
        assert tail[k] in s[1..];
        var j :| 0 <= j < |s[1..]| && s[1..][j] == tail[k];
        assert s[j + 1] == tail[k];
      }
    }
    assert s == [head] + s[1..];
    var r := [head] + tail;
    forall i, j | 0 <= i < j < |r|
      ensures le(r[i], r[j])
    {
      if i > 0 {
        assert r[i] == tail[i - 1] && r[j] == tail[j - 1];
      } else {
        assert r[j] == tail[j - 1];
      }
    }
  }

  function Sort<T(!new)>(s: seq<T>, le: (T, T) -> bool): (r: seq<T>)
    requires TotalPreorder(le)
    ensures multiset(r) == multiset(s)
    ensures SortedBy(r, le)
  {
    if |s| == 0 then
      []
    else
      assert s == [s[0]] + s[1..];
      Insert(s[0], Sort(s[1..], le), le)
  }

  /** Sorting an already sorted sequence gives it back unchanged. */
  lemma {:induction false} SortIdempotent<T(!new)>(s: seq<T>, le: (T, T) -> bool)
    requires TotalPreorder(le)
    requires SortedBy(s, le)
    ensures Sort(s, le) == s
  {
    if |s| > 0 {
      assert SortedBy(s[1..], le);
      SortIdempotent(s[1..], le);
      if |s| > 1 {
        assert le(s[0], s[1]);
      }
      assert s == [s[0]] + s[1..];
    }
  }

  /** `a` and `b` are equal under `le`. */
  ghost predicate Equivalent<T>(le: (T, T) -> bool, a: T, b: T) {
    le(a, b) && le(b, a)
  }

  /** The elements of `s` equal to `z` under `le`, in their order in `s`. */
  ghost function Class<T>(s: seq<T>, le: (T, T) -> bool, z: T): seq<T> {
    if |s| == 0 then []
    else (if Equivalent(le, s[0], z) then [s[0]] else []) + Class(s[1..], le, z)
  }

  lemma ClassCons<T>(y: T, t: seq<T>, le: (T, T) -> bool, z: T)
    ensures Class([y] + t, le, z) == (if Equivalent(le, y, z) then [y] else []) + Class(t, le, z)
  {
    assert ([y] + t)[1..] == t;
  }

  /** Inserting `x` puts it in front of every element equal to it. */
  lemma {:induction false} InsertClass<T(!new)>(x: T, t: seq<T>, le: (T, T) -> bool, z: T)
    requires TotalPreorder(le)
    requires SortedBy(t, le)
    ensures Class(Insert(x, t, le), le, z)
            == (if Equivalent(le, x, z) then [x] else []) + Class(t, le, z)
  {
    if |t| == 0 || le(x, t[0]) {
      ClassCons(x, t, le, z);
    } else {
      var y, rest := t[0], t[1..];
      var tail := Insert(x, rest, le);
      assert Insert(x, t, le) == [y] + tail;
      assert SortedBy(rest, le);
      InsertClass(x, rest, le, z);
      ClassCons(y, tail, le, z);
      assert t == [y] + rest;
      ClassCons(y, rest, le, z);
      assert le(x, z) && le(z, y) ==> le(x, y);
      SwapClasses(x, y, le, z, Class(rest, le, z));
    }
  }

  /** Two elements that are not both equal to `z` can pass each other in a class. */
  lemma SwapClasses<T>(x: T, y: T, le: (T, T) -> bool, z: T, rest: seq<T>)
    requires !(Equivalent(le, x, z) && Equivalent(le, y, z))
    ensures (if Equivalent(le, y, z) then [y] else [])
            + ((if Equivalent(le, x, z) then [x] else []) + rest)
            == (if Equivalent(le, x, z) then [x] else [])
               + ((if Equivalent(le, y, z) then [y] else []) + rest)
  {
  }

  /** The sort is stable: elements equal under `le` come out in the order
      they went in. */
  lemma {:induction false} SortStable<T(!new)>(s: seq<T>, le: (T, T) -> bool, z: T)
    requires TotalPreorder(le)
    ensures Class(Sort(s, le), le, z) == Class(s, le, z)
  {
    if |s| > 0 {
      SortStable(s[1..], le, z);
      InsertClass(s[0], Sort(s[1..], le), le, z);
    }
  }
}

=== FILE: spotorder.dfy ===
/** The final ordering of the spots before they are handed to the acquisition
    writer: ascending by x index, then by y index. */
module SpotOrder {
  import opened ImagingModel
  import opened SpotRegistry
  import opened Sorting

  /** Integer.compare. */
  function IntCompare(a: int, b: int): (r: int)
    ensures r < 0 <==> a < b
    ensures r == 0 <==> a == b
    ensures r > 0 <==> a > b
  {
    if a < b then -1 else if a == b then 0 else 1
  }

  /** The comparator of the source on registry entries: x taken from the first
      entry's key frame and the second entry's spot, y from both key frames. */
  function MixedCompare(e1: (Frame, Spot), e2: (Frame, Spot)): int
    requires e1.0.info.Some? && e2.0.info.Some?
  {
    var xCompare := IntCompare(e1.0.info.value.x, e2.1.info.x);
    if xCompare != 0 then xCompare
    else IntCompare(e1.0.info.value.y, e2.0.info.value.y)
  }

  /** Plate order: by x, then by y. */
  predicate LeXY(a: SpotInfo, b: SpotInfo) {
    a.x < b.x || (a.x == b.x && a.y <= b.y)
  }

  predicate LeSpot(a: Spot, b: Spot) {
    LeXY(a.info, b.info)
  }

  lemma LeSpotIsTotalPreorder()
    ensures TotalPreorder(LeSpot)
  {
  }

  /** For entries whose spot carries its key frame's spot info (as every
      registry entry does), the source's mixed comparator orders exactly as
      the plain (x, y) order of the spots. */
  lemma MixedCompareIsXY(e1: (Frame, Spot), e2: (Frame, Spot))
    requires e1.0.info == Some(e1.1.info) && e2.0.info == Some(e2.1.info)
    ensures MixedCompare(e1, e2) <= 0 <==> LeXY(e1.1.info, e2.1.info)
    ensures MixedCompare(e1, e2) == -MixedCompare(e2, e1)
  {
  }

  /** The registry's spots in creation order (its entries' values). */
  function Values(reg: Registry): (r: seq<Spot>)
    requires Valid(reg)
    ensures |r| == |reg.log|
    ensures forall i :: 0 <= i < |r| ==> r[i] == reg.spots[reg.log[i]]
  {
    seq(|reg.log|, i requires 0 <= i < |reg.log| => reg.spots[reg.log[i]])
  }

  /** The spot list handed to the writer: the registry's spots, one per key,
      in (x, y) order. Sorting the spots themselves orders exactly as the
      source's comparator on entries does (MixedCompareIsXY), because every
      spot carries its key frame's spot info. */
  function SortedSpots(reg: Registry): (r: seq<Spot>)
    requires Valid(reg)
    ensures |r| == |reg.log|
    ensures forall i, j :: 0 <= i < j < |r| ==> LeXY(r[i].info, r[j].info)
    ensures multiset(r) == multiset(Values(reg))
    ensures forall s :: s in r <==> s in reg.spots.Values
  {
    LeSpotIsTotalPreorder();
    var values := Values(reg);
    var r := Sort(values, LeSpot);
    assert |r| == |values| by {
      assert |multiset(r)| == |multiset(values)|;
    }
    assert forall s :: s in r <==> s in reg.spots.Values by {
      forall s
        ensures s in r <==> s in reg.spots.Values
      {
        assert s in r <==> s in multiset(values);
        if s in reg.spots.Values {
          var f :| f in reg.spots && reg.spots[f] == s;
          var i :| 0 <= i < |reg.log| && reg.log[i] == f;
          assert values[i] == s;
        }
      }
    }
    r
  }

  /** Re-sorting the emitted spot list by (x, y) returns it unchanged. */
  lemma ResortIsIdentity(reg: Registry)
    requires Valid(reg)
    ensures Sort(SortedSpots(reg), LeSpot) == SortedSpots(reg)
  {
    LeSpotIsTotalPreorder();
    SortIdempotent(SortedSpots(reg), LeSpot);
  }
}

=== FILE: task.dfy ===
/** The run of the imaging MS/MS task: rows by ascending average area, each
    row's best feature first reused at existing spots, then given new spots,
    a histogram of MS/MS events per feature, and the spots in plate order. */
module ImageMsMsTask {
  import opened ImagingModel
  import opened Collaborators
  import opened SpotRegistry
  import opened Sorting
  import opened Candidates
  import opened ExistingSpots
  import opened NewSpots
  import opened SpotOrder

  /** The registry, the feature-to-spots map (keyed by feature id) and the
      histogram of MS/MS events per feature. */
  datatype EngineState = EngineState(reg: Registry, featureSpots: map<nat, seq<UsedSpot>>,
                                     histogram: seq<nat>)

  /** A row step either succeeds or fails on the histogram's array index. */
  datatype Outcome = Ok(state: EngineState) | HistogramIndexOutOfBounds(index: nat)

  /** No rows: the task finishes at once. Otherwise the sorted spots and the
      histogram, or the failure of a row step. */
  datatype RunOutcome = NoRows
                      | Acquisition(spots: seq<Spot>, histogram: seq<nat>)
                      | Failed(index: nat)

  /** Nothing assigned yet; the histogram has numMsMs * |ladder| + 1 buckets. */
  function Initial(c: Config): (s: EngineState)
    ensures |s.histogram| == TotalMsMsPerFeature(c) + 1
    ensures forall i :: 0 <= i < |s.histogram| ==> s.histogram[i] == 0
    ensures Valid(s.reg) && s.reg.spots == map[] && s.featureSpots == map[]
  {
    EngineState(Empty(), map[], seq(TotalMsMsPerFeature(c) + 1, _ => 0))
  }

  function Sum(h: seq<nat>): nat {
    if |h| == 0 then 0 else h[0] + Sum(h[1..])
  }

  lemma {:induction false} SumIncrement(h: seq<nat>, t: nat)
    requires t < |h|
    ensures Sum(h[t := h[t] + 1]) == Sum(h) + 1
  {
    if t > 0 {
      assert h[t := h[t] + 1][1..] == h[1..][t - 1 := h[1..][t - 1] + 1];
      SumIncrement(h[1..], t - 1);
    } else {
      assert h[t := h[t] + 1][1..] == h[1..];
    }
  }

  /** Rows in ascending average area (sort of the row list by getAverageArea). */
  predicate AreaLe(a: Row, b: Row) {
    a.averageArea <= b.averageArea
  }

  function SortRows(rows: seq<Row>): (r: seq<Row>)
    ensures multiset(r) == multiset(rows)
    ensures forall i, j :: 0 <= i < j < |r| ==> r[i].averageArea <= r[j].averageArea
  {
    assert TotalPreorder(AreaLe);
    Sort(rows, AreaLe)
  }

  /** Rows of equal average area keep their order in the list. */
  lemma SortRowsStable(rows: seq<Row>, z: Row)
    ensures Class(SortRows(rows), AreaLe, z) == Class(rows, AreaLe, z)
  {
    assert TotalPreorder(AreaLe);
    SortStable(rows, AreaLe, z);
  }

  /** The precursor of a feature: nothing scheduled yet, isolated over the
      adjusted mobility range. */
  function NewPrecursor(c: Config, o: Collaborators, f: Feature): (p: Precursor)
    ensures p.acquired == multiset{} && p.ladder == c.ladder && p.ion.featureId == f.id
    ensures p.ion.mz == f.mz
    ensures p.ion.oneOverK0
            == o.adjustMobilityRange(f.mobility, f.mobilityRange, c.minMobilityWidth,
                                     c.maxMobilityWidth)
  {
    Precursor(Ion(f.id, f.mz,
                  o.adjustMobilityRange(f.mobility, f.mobilityRange,
                                        c.minMobilityWidth, c.maxMobilityWidth)),
              c.ladder, multiset{})
  }

  /** featureSpotMap.computeIfAbsent(feature, new list): the feature's spots so far. */
  function SpotsOfFeature(s: EngineState, id: nat): seq<UsedSpot> {
    if id in s.featureSpots then s.featureSpots[id] else []
  }

  /** addEntriesToExistingSpots, with the feature's entry of the
      feature-to-spots map created if absent and set to the pass's list. */
  function AddEntriesToExistingSpots(c: Config, o: Collaborators, s: EngineState,
                                     p: Precursor, series: seq<DataPoint>)
    : (r: (EngineState, Precursor))
    ensures r.0.reg.log == s.reg.log && r.0.reg.spots.Keys == s.reg.spots.Keys
    ensures Extends(s.reg, r.0.reg)
    ensures r.0.featureSpots.Keys == s.featureSpots.Keys + {p.ion.featureId}
    ensures r.0.histogram == s.histogram
  {
    var cands := PossibleExistingSpots(s.reg.spots, series, c.minIntensity);
    var st := PassState(s.reg, SpotsOfFeature(s, p.ion.featureId), p);
    var after := ReusePass(c, o, cands, st).0;
    (EngineState(after.reg, s.featureSpots[p.ion.featureId := after.used], s.histogram),
     after.precursor)
  }

  /** createNewMsMsSpots over the series in descending intensity order, with
      `limit` as the per-energy limit handed to the energy helper. Run hands
      it the source's literal 3 (NewSpots.CreateQuota); the corrected program
      hands it numMsMs (see NewSpots.LiteralQuotaOvershoots). */
  function CreateNewMsMsSpots(c: Config, o: Collaborators, limit: nat, s: EngineState,
                              p: Precursor, series: seq<DataPoint>)
    : (r: (EngineState, Precursor))
    ensures Extends(s.reg, r.0.reg)
    ensures r.0.featureSpots.Keys == s.featureSpots.Keys + {p.ion.featureId}
    ensures r.0.histogram == s.histogram
  {
    var order := IntensityOrder(series);
    var st := PassState(s.reg, SpotsOfFeature(s, p.ion.featureId), p);
    var after := CreatePass(c, o, limit, series, order, st);
    (EngineState(after.reg, s.featureSpots[p.ion.featureId := after.used], s.histogram),
     after.precursor)
  }

  /** The state and precursor right after a row's reuse pass. */
  function AfterReuse(c: Config, o: Collaborators, s: EngineState, row: Row)
    : (r: (EngineState, Precursor))
    ensures r.0.reg.spots.Keys == s.reg.spots.Keys && Extends(s.reg, r.0.reg)
    ensures r.0.histogram == s.histogram
  {
    AddEntriesToExistingSpots(c, o, s, NewPrecursor(c, o, row.best), row.best.series)
  }

  /** The create pass of a row and the count of its precursor's MS/MS events
      in the histogram (spotsFeatureCounter[precursor.getTotalMsMs()]++): the
      bucket of the precursor's final number of events goes up by one and no
      other bucket changes; a number past the last bucket is the array-index
      failure. */
  function CreateAndCount(c: Config, o: Collaborators, limit: nat, s: EngineState, p: Precursor,
                          series: seq<DataPoint>): (r: Outcome)
    ensures r.Ok? ==> Extends(s.reg, r.state.reg) && |r.state.histogram| == |s.histogram|
    ensures r.Ok? ==> Sum(r.state.histogram) == Sum(s.histogram) + 1
    ensures var t := TotalMsMs(CreateNewMsMsSpots(c, o, limit, s, p, series).1);
            && (r.Ok? <==> t < |s.histogram|)
            && (r.Ok? ==> r.state.histogram == s.histogram[t := s.histogram[t] + 1]
                          && r.state.reg == CreateNewMsMsSpots(c, o, limit, s, p, series).0.reg
                          && r.state.featureSpots
                             == CreateNewMsMsSpots(c, o, limit, s, p, series).0.featureSpots)
            && (r.HistogramIndexOutOfBounds? ==> r.index == t)
  {
    var (s2, p2) := CreateNewMsMsSpots(c, o, limit, s, p, series);
    var t := TotalMsMs(p2);
    if t < |s2.histogram| then
      SumIncrement(s2.histogram, t);
      Ok(s2.(histogram := s2.histogram[t := s2.histogram[t] + 1]))
    else HistogramIndexOutOfBounds(t)
  }

  /** A row reaches the create pass (and the histogram) when its best feature
      is at or above the floor, the reuse pass left some energy under
      numMsMs, and the capacity guard does not fire. The guard compares the
      number of features in the feature-to-spots map with the number of scans.
      A row that reaches it ends as the create pass and count on the state
      after reuse; one that does not ends right there, unchanged or as the
      reuse pass left it. */
  predicate ReachesCreate(c: Config, o: Collaborators, limit: nat, s: EngineState, row: Row): (b: bool)
    ensures b ==> ProcessRow(c, o, limit, s, row)
                  == CreateAndCount(c, o, limit, AfterReuse(c, o, s, row).0, AfterReuse(c, o, s, row).1,
                                    row.best.series)
    ensures !b ==> ProcessRow(c, o, limit, s, row) == Ok(s)
                   || ProcessRow(c, o, limit, s, row) == Ok(AfterReuse(c, o, s, row).0)
  {
    && !(row.best.height < c.minIntensity)
    && LowestMsMsCount(AfterReuse(c, o, s, row).1) < c.numMsMs
    && |AfterReuse(c, o, s, row).0.featureSpots| != c.numScans
  }

  /** The number of MS/MS events a row that reaches the create pass ends with. */
  function RowEvents(c: Config, o: Collaborators, limit: nat, s: EngineState, row: Row): nat {
    var after := AfterReuse(c, o, s, row);
    TotalMsMs(CreateNewMsMsSpots(c, o, limit, after.0, after.1, row.best.series).1)
  }

  /** One iteration of the row loop. */
  function ProcessRow(c: Config, o: Collaborators, limit: nat, s: EngineState, row: Row): (r: Outcome)
    ensures r.Ok? ==> Extends(s.reg, r.state.reg) && |r.state.histogram| == |s.histogram|
  {
    if row.best.height < c.minIntensity then Ok(s)
    else
      var after := AfterReuse(c, o, s, row);
      if LowestMsMsCount(after.1) >= c.numMsMs then Ok(after.0)
      else if |after.0.featureSpots| == c.numScans then Ok(after.0)
      else
        var r := CreateAndCount(c, o, limit, after.0, after.1, row.best.series);
        if r.Ok? then
          ExtendsTransitive(s.reg, after.0.reg, r.state.reg);
          r
        else r
  }

  /** A row whose best feature is below the intensity floor changes nothing. */
  lemma RowBelowFloorIdle(c: Config, o: Collaborators, limit: nat, s: EngineState, row: Row)
    requires row.best.height < c.minIntensity
    ensures ProcessRow(c, o, limit, s, row) == Ok(s)
  {
  }

  /** A row that stops after the reuse pass (satisfied, or the capacity guard
      fired) creates no spot and leaves the histogram alone; one that reaches
      the create pass and succeeds adds one count to the bucket of its number
      of MS/MS events and changes no other bucket. */
  lemma RowHistogramCount(c: Config, o: Collaborators, limit: nat, s: EngineState, row: Row)
    ensures !ReachesCreate(c, o, limit, s, row) ==>
              && ProcessRow(c, o, limit, s, row).Ok?
              && ProcessRow(c, o, limit, s, row).state.histogram == s.histogram
              && ProcessRow(c, o, limit, s, row).state.reg.spots.Keys == s.reg.spots.Keys
    ensures ReachesCreate(c, o, limit, s, row) ==>
              var t := RowEvents(c, o, limit, s, row);
              && (ProcessRow(c, o, limit, s, row).Ok? <==> t < |s.histogram|)
              && (ProcessRow(c, o, limit, s, row).Ok? ==>
                    ProcessRow(c, o, limit, s, row).state.histogram == s.histogram[t := s.histogram[t] + 1])
  {
    if ReachesCreate(c, o, limit, s, row) {
      ReachedRowCounts(c, o, limit, s, row);
    } else {
      StoppedRowIdle(c, o, limit, s, row);
    }
  }

  lemma StoppedRowIdle(c: Config, o: Collaborators, limit: nat, s: EngineState, row: Row)
    requires !ReachesCreate(c, o, limit, s, row)
    ensures ProcessRow(c, o, limit, s, row).Ok?
    ensures ProcessRow(c, o, limit, s, row).state.histogram == s.histogram
    ensures ProcessRow(c, o, limit, s, row).state.reg.spots.Keys == s.reg.spots.Keys
  {
    var after := AfterReuse(c, o, s, row);
    assert ProcessRow(c, o, limit, s, row) == Ok(s) || ProcessRow(c, o, limit, s, row) == Ok(after.0);
  }

  lemma ReachedRowCounts(c: Config, o: Collaborators, limit: nat, s: EngineState, row: Row)
    requires ReachesCreate(c, o, limit, s, row)
    ensures var t := RowEvents(c, o, limit, s, row);
            && (ProcessRow(c, o, limit, s, row).Ok? <==> t < |s.histogram|)
            && (ProcessRow(c, o, limit, s, row).Ok? ==>
                  ProcessRow(c, o, limit, s, row).state.histogram == s.histogram[t := s.histogram[t] + 1])
  {
    var after := AfterReuse(c, o, s, row);
    var r := CreateAndCount(c, o, limit, after.0, after.1, row.best.series);
    assert ProcessRow(c, o, limit, s, row) == r;
    assert after.0.histogram == s.histogram;
  }

  /** The row loop of run. */
  function RunRows(c: Config, o: Collaborators, limit: nat, rows: seq<Row>, s: EngineState): (r: Outcome)
    ensures r.Ok? ==> Extends(s.reg, r.state.reg) && |r.state.histogram| == |s.histogram|
    decreases |rows|
  {
    if |rows| == 0 then Ok(s)
    else
      match ProcessRow(c, o, limit, s, rows[0])
      case HistogramIndexOutOfBounds(i) => HistogramIndexOutOfBounds(i)
      case Ok(s1) =>
        var r := RunRows(c, o, limit, rows[1..], s1);
        if r.Ok? then
          ExtendsTransitive(s.reg, s1.reg, r.state.reg);
          r
        else r
  }

  /** run: sort the rows, process them, and hand the spots over in plate order. */
  function Run(c: Config, o: Collaborators, rows: seq<Row>): (r: RunOutcome)
    ensures |rows| == 0 <==> r.NoRows?
    ensures r.Acquisition? ==>
              && |r.histogram| == TotalMsMsPerFeature(c) + 1
              && forall i, j :: 0 <= i < j < |r.spots| ==> LeXY(r.spots[i].info, r.spots[j].info)
  {
    if |rows| == 0 then NoRows
    else
      var sorted := SortRows(rows);
      match RunRows(c, o, CreateQuota, sorted, Initial(c))
      case HistogramIndexOutOfBounds(i) => Failed(i)
      case Ok(s) =>
        RunKeepsValid(c, o, CreateQuota, sorted, Initial(c));
        Acquisition(SortedSpots(s.reg), s.histogram)
  }

  /** The reuse pass of a row keeps the registry valid. */
  lemma AfterReuseKeepsValid(c: Config, o: Collaborators, s: EngineState, row: Row)
    requires Valid(s.reg)
    ensures Valid(AfterReuse(c, o, s, row).0.reg)
  {
    var f := row.best;
    var cands := PossibleExistingSpots(s.reg.spots, f.series, c.minIntensity);
    ReuseKeepsValid(c, o, cands, PassState(s.reg, SpotsOfFeature(s, f.id), NewPrecursor(c, o, f)));
  }

  /** The create pass and count keep the registry valid. */
  lemma CreateAndCountKeepsValid(c: Config, o: Collaborators, limit: nat, s: EngineState, p: Precursor,
                                 series: seq<DataPoint>)
    requires Valid(s.reg)
    ensures CreateAndCount(c, o, limit, s, p, series).Ok? ==>
              Valid(CreateAndCount(c, o, limit, s, p, series).state.reg)
  {
    CreateKeepsValid(c, o, limit, series, IntensityOrder(series),
                     PassState(s.reg, SpotsOfFeature(s, p.ion.featureId), p));
  }

  /** One row keeps the registry valid. */
  lemma RowKeepsValid(c: Config, o: Collaborators, limit: nat, s: EngineState, row: Row)
    requires Valid(s.reg)
    ensures ProcessRow(c, o, limit, s, row).Ok? ==> Valid(ProcessRow(c, o, limit, s, row).state.reg)
  {
    if !(row.best.height < c.minIntensity) {
      AfterReuseKeepsValid(c, o, s, row);
      var after := AfterReuse(c, o, s, row);
      CreateAndCountKeepsValid(c, o, limit, after.0, after.1, row.best.series);
    }
  }

  /** The row loop keeps the registry valid. */
  lemma {:induction false} RunKeepsValid(c: Config, o: Collaborators, limit: nat, rows: seq<Row>,
                                         s: EngineState)
    requires Valid(s.reg)
    ensures RunRows(c, o, limit, rows, s).Ok? ==> Valid(RunRows(c, o, limit, rows, s).state.reg)
    decreases |rows|
  {
    if |rows| > 0 {
      RowKeepsValid(c, o, limit, s, rows[0]);
      var r := ProcessRow(c, o, limit, s, rows[0]);
      if r.Ok? {
        RunKeepsValid(c, o, limit, rows[1..], r.state);
      }
    }
  }

  /** With honest energy helpers the reuse pass leaves every ladder energy
      of the new precursor at most numMsMs times. */
  lemma AfterReuseWithinQuota(c: Config, o: Collaborators, s: EngineState, row: Row)
    requires Honest(o)
    ensures WithinQuota(AfterReuse(c, o, s, row).1, c.ladder, c.numMsMs)
  {
    var f := row.best;
    var cands := PossibleExistingSpots(s.reg.spots, f.series, c.minIntensity);
    ReuseKeepsQuota(c, o, cands, PassState(s.reg, SpotsOfFeature(s, f.id), NewPrecursor(c, o, f)));
  }

  /** A precursor within quota keeps the histogram index in bounds: the
      create loop stops once numMsMs * |ladder| events are scheduled. */
  lemma CreateAndCountInBounds(c: Config, o: Collaborators, limit: nat, s: EngineState, p: Precursor,
                               series: seq<DataPoint>)
    requires WithinQuota(p, c.ladder, c.numMsMs)
    requires |s.histogram| == TotalMsMsPerFeature(c) + 1
    ensures CreateAndCount(c, o, limit, s, p, series).Ok?
  {
    QuotaBoundsTotal(p, c.ladder, c.numMsMs);
    CreateRespectsTotal(c, o, limit, series, IntensityOrder(series),
                        PassState(s.reg, SpotsOfFeature(s, p.ion.featureId), p));
  }

  /** With honest energy helpers and a histogram of numMsMs * |ladder| + 1
      buckets, the histogram increment of a row is always in bounds. */
  lemma RowHistogramInBounds(c: Config, o: Collaborators, limit: nat, s: EngineState, row: Row)
    requires Honest(o)
    requires |s.histogram| == TotalMsMsPerFeature(c) + 1
    ensures ProcessRow(c, o, limit, s, row).Ok?
  {
    if ReachesCreate(c, o, limit, s, row) {
      AfterReuseWithinQuota(c, o, s, row);
      var after := AfterReuse(c, o, s, row);
      CreateAndCountInBounds(c, o, limit, after.0, after.1, row.best.series);
    }
  }

  /** With honest energy helpers the run never fails on the histogram. */
  lemma {:induction false} RunHistogramInBounds(c: Config, o: Collaborators, limit: nat, rows: seq<Row>,
                                                s: EngineState)
    requires Honest(o)
    requires |s.histogram| == TotalMsMsPerFeature(c) + 1
    ensures RunRows(c, o, limit, rows, s).Ok?
    decreases |rows|
  {
    if |rows| > 0 {
      RowHistogramInBounds(c, o, limit, s, rows[0]);
      RunHistogramInBounds(c, o, limit, rows[1..], ProcessRow(c, o, limit, s, rows[0]).state);
    }
  }

  lemma RunNeverFails(c: Config, o: Collaborators, rows: seq<Row>)
    requires Honest(o)
    ensures !Run(c, o, rows).Failed?
  {
    if |rows| > 0 {
      RunHistogramInBounds(c, o, CreateQuota, SortRows(rows), Initial(c));
    }
  }

  /** The histogram total counts rows: each row adds at most one event
      count, so the run's histogram sums to at most the number of rows. */
  lemma {:induction false} RunHistogramSum(c: Config, o: Collaborators, limit: nat, rows: seq<Row>,
                                           s: EngineState)
    ensures var r := RunRows(c, o, limit, rows, s);
            r.Ok? ==> Sum(s.histogram) <= Sum(r.state.histogram) <= Sum(s.histogram) + |rows|
    decreases |rows|
  {
    if |rows| > 0 {
      RowHistogramCount(c, o, limit, s, rows[0]);
      var r := ProcessRow(c, o, limit, s, rows[0]);
      if r.Ok? {
        RunHistogramSum(c, o, limit, rows[1..], r.state);
      }
    }
  }

  /** The event numbers of the rows that reach the create pass, one entry
      per such row, up to and including the first row that fails. */
  ghost function CountedTotals(c: Config, o: Collaborators, limit: nat, rows: seq<Row>, s: EngineState)
    : multiset<nat>
    decreases |rows|
  {
    if |rows| == 0 then multiset{}
    else
      match ProcessRow(c, o, limit, s, rows[0])
      case HistogramIndexOutOfBounds(_) => CountedHere(c, o, limit, s, rows[0])
      case Ok(s1) => CountedHere(c, o, limit, s, rows[0]) + CountedTotals(c, o, limit, rows[1..], s1)
  }

  /** The event number of the row, if it reaches the create pass. */
  ghost function CountedHere(c: Config, o: Collaborators, limit: nat, s: EngineState, row: Row): multiset<nat> {
    if ReachesCreate(c, o, limit, s, row) then multiset{RowEvents(c, o, limit, s, row)} else multiset{}
  }

  /** One row adds its own count to the histogram's buckets. */
  lemma RowBuckets(c: Config, o: Collaborators, limit: nat, s: EngineState, row: Row)
    ensures var r := ProcessRow(c, o, limit, s, row);
            r.Ok? ==> forall k :: 0 <= k < |s.histogram| ==>
                        r.state.histogram[k] == s.histogram[k] + CountedHere(c, o, limit, s, row)[k]
  {
    RowHistogramCount(c, o, limit, s, row);
  }

  /** Bucket counts compose along the rows. */
  lemma AddBuckets(h0: seq<nat>, h1: seq<nat>, h2: seq<nat>, here: multiset<nat>,
                   rest: multiset<nat>)
    requires |h1| == |h0| && |h2| == |h1|
    requires forall k :: 0 <= k < |h0| ==> h1[k] == h0[k] + here[k]
    requires forall k :: 0 <= k < |h1| ==> h2[k] == h1[k] + rest[k]
    ensures forall k :: 0 <= k < |h0| ==> h2[k] == h0[k] + (here + rest)[k]
  {
  }

  /** Bucket k of the histogram counts the rows that reached the create pass
      and ended with k MS/MS events; rows that stop earlier are not counted. */
  lemma {:induction false} RunHistogramBuckets(c: Config, o: Collaborators, limit: nat, rows: seq<Row>,
                                               s: EngineState)
    ensures var r := RunRows(c, o, limit, rows, s);
            r.Ok? ==> forall k :: 0 <= k < |s.histogram| ==>
                        r.state.histogram[k] == s.histogram[k] + CountedTotals(c, o, limit, rows, s)[k]
    decreases |rows|
  {
    if |rows| > 0 {
      RowBuckets(c, o, limit, s, rows[0]);
      var r1 := ProcessRow(c, o, limit, s, rows[0]);
      if r1.Ok? {
        RunHistogramBuckets(c, o, limit, rows[1..], r1.state);
        var r := RunRows(c, o, limit, rows, s);
        if r.Ok? {
          assert CountedTotals(c, o, limit, rows, s)
                 == CountedHere(c, o, limit, s, rows[0]) + CountedTotals(c, o, limit, rows[1..], r1.state);
          AddBuckets(s.histogram, r1.state.histogram, r.state.histogram,
                     CountedHere(c, o, limit, s, rows[0]), CountedTotals(c, o, limit, rows[1..], r1.state));
        }
      }
    }
  }

  /** The histogram of a run: bucket k is the number of rows, in ascending
      area order, that reached the create pass and ended with k events. */
  lemma RunHistogramCountsRows(c: Config, o: Collaborators, rows: seq<Row>)
    ensures Run(c, o, rows).Acquisition? ==>
              forall k :: 0 <= k < |Run(c, o, rows).histogram| ==>
                Run(c, o, rows).histogram[k] == CountedTotals(c, o, CreateQuota, SortRows(rows), Initial(c))[k]
  {
    if |rows| > 0 {
      var sorted := SortRows(rows);
      var out := RunRows(c, o, CreateQuota, sorted, Initial(c));
      RunHistogramBuckets(c, o, CreateQuota, sorted, Initial(c));
      if out.Ok? {
        assert Run(c, o, rows).histogram == out.state.histogram;
        assert forall k :: 0 <= k < |Initial(c).histogram| ==> Initial(c).histogram[k] == 0;
      }
    }
  }

  lemma SumZero(n: nat)
    ensures Sum(seq(n, _ => 0)) == 0
  {
    if n > 0 {
      assert seq(n, _ => 0)[1..] == seq(n - 1, _ => 0);
      SumZero(n - 1);
    }
  }

  /** The result of a run: each registry spot exactly once, in plate order,
      and a histogram whose counts add up to at most the number of rows. */
  lemma RunEmitsRegistry(c: Config, o: Collaborators, rows: seq<Row>)
    requires |rows| > 0
    ensures var out := RunRows(c, o, CreateQuota, SortRows(rows), Initial(c));
            out.Ok? ==>
              && Valid(out.state.reg)
              && Run(c, o, rows).Acquisition?
              && multiset(Run(c, o, rows).spots) == multiset(Values(out.state.reg))
              && Run(c, o, rows).histogram == out.state.histogram
              && Sum(out.state.histogram) <= |rows|
  {
    var sorted := SortRows(rows);
    RunKeepsValid(c, o, CreateQuota, sorted, Initial(c));
    RunHistogramSum(c, o, CreateQuota, sorted, Initial(c));
    SumZero(TotalMsMsPerFeature(c) + 1);
    assert |sorted| == |rows| by {
      assert |multiset(sorted)| == |multiset(rows)|;
    }
  }

  /** The pass state of feature `id` in an engine state. */
  function PassOf(s: EngineState, id: nat, p: Precursor): PassState {
    PassState(s.reg, SpotsOfFeature(s, id), p)
  }

  /** The reuse pass of a row only appends to its feature's list, and the new
      precursor's counters are exactly the energies appended. */
  lemma AfterReuseGrows(c: Config, o: Collaborators, s: EngineState, row: Row)
    ensures Grows(PassOf(s, row.best.id, NewPrecursor(c, o, row.best)),
                  PassOf(AfterReuse(c, o, s, row).0, row.best.id, AfterReuse(c, o, s, row).1))
  {
    var f := row.best;
    var cands := PossibleExistingSpots(s.reg.spots, f.series, c.minIntensity);
    ReuseGrows(c, o, cands, PassOf(s, f.id, NewPrecursor(c, o, f)));
  }

  /** The create pass only appends to the feature's list. */
  lemma CreateNewGrows(c: Config, o: Collaborators, limit: nat, s: EngineState, p: Precursor,
                       series: seq<DataPoint>)
    ensures Grows(PassOf(s, p.ion.featureId, p),
                  PassOf(CreateNewMsMsSpots(c, o, limit, s, p, series).0, p.ion.featureId,
                         CreateNewMsMsSpots(c, o, limit, s, p, series).1))
  {
    CreateGrows(c, o, limit, series, IntensityOrder(series), PassOf(s, p.ion.featureId, p));
  }

  /** `after` extends `before`, and the appended spots use every energy of
      the ladder at most `n` times and no other energy. */
  ghost predicate AddedWithinQuota(before: seq<UsedSpot>, after: seq<UsedSpot>, ladder: seq<real>,
                                   n: nat) {
    && |before| <= |after| && after[..|before|] == before
    && forall e :: e in Energies(after[|before|..]) ==>
         e in ladder && Energies(after[|before|..])[e] <= n
  }

  /** A precursor that started empty and grew to within quota appended within quota. */
  lemma GrownWithinQuota(a: PassState, b: PassState, ladder: seq<real>, n: nat)
    requires Grows(a, b) && a.precursor.acquired == multiset{}
    requires WithinQuota(b.precursor, ladder, n)
    ensures AddedWithinQuota(a.used, b.used, ladder, n)
  {
  }

  /** With honest energy helpers a row appends every ladder energy at most
      max(numMsMs, limit) times to its feature's spot list, and no other
      energy: the reuse pass keeps numMsMs, the create pass the limit it hands
      the helper. With the limit at numMsMs (the corrected create pass) that
      is numMsMs; with the source's 3 it is max(numMsMs, 3), and
      NewSpots.LiteralQuotaOvershoots shows the excess is reached. */
  lemma RowAddsWithinQuota(c: Config, o: Collaborators, limit: nat, s: EngineState, row: Row)
    requires Honest(o)
    ensures var r := ProcessRow(c, o, limit, s, row);
            var n := if limit <= c.numMsMs then c.numMsMs else limit;
            r.Ok? ==> AddedWithinQuota(SpotsOfFeature(s, row.best.id),
                                       SpotsOfFeature(r.state, row.best.id), c.ladder, n)
  {
    var n := if limit <= c.numMsMs then c.numMsMs else limit;
    var r := ProcessRow(c, o, limit, s, row);
    var id := row.best.id;
    var st0 := PassOf(s, id, NewPrecursor(c, o, row.best));
    if row.best.height < c.minIntensity {
      assert r == Ok(s);
      GrowsReflexive(st0);
      GrownWithinQuota(st0, st0, c.ladder, n);
    } else if r.Ok? {
      if ReachesCreate(c, o, limit, s, row) {
        CreatedRowWithinQuota(c, o, limit, n, s, row);
      } else {
        var after := AfterReuse(c, o, s, row);
        assert r.state == after.0;
        AfterReuseGrows(c, o, s, row);
        AfterReuseWithinQuota(c, o, s, row);
        GrownWithinQuota(st0, PassOf(after.0, id, after.1), c.ladder, n);
      }
    }
  }

  /** A row that reaches the create pass appends within the larger of the
      two limits. */
  lemma CreatedRowWithinQuota(c: Config, o: Collaborators, limit: nat, n: nat, s: EngineState,
                              row: Row)
    requires Honest(o)
    requires c.numMsMs <= n && limit <= n
    requires ReachesCreate(c, o, limit, s, row) && ProcessRow(c, o, limit, s, row).Ok?
    ensures AddedWithinQuota(SpotsOfFeature(s, row.best.id),
                             SpotsOfFeature(ProcessRow(c, o, limit, s, row).state, row.best.id),
                             c.ladder, n)
  {
    var id := row.best.id;
    var st0 := PassOf(s, id, NewPrecursor(c, o, row.best));
    var after := AfterReuse(c, o, s, row);
    var st1 := PassOf(after.0, id, after.1);
    AfterReuseGrows(c, o, s, row);
    AfterReuseWithinQuota(c, o, s, row);
    var created := CreateNewMsMsSpots(c, o, limit, after.0, after.1, row.best.series);
    CreateNewGrows(c, o, limit, after.0, after.1, row.best.series);
    CreateKeepsQuota(c, o, limit, n, row.best.series, IntensityOrder(row.best.series), st1);
    GrowsTransitive(st0, st1, PassOf(created.0, id, created.1));
    GrownWithinQuota(st0, PassOf(created.0, id, created.1), c.ladder, n);
    assert ProcessRow(c, o, limit, s, row).state.featureSpots == created.0.featureSpots;
  }

  /** Every feature's spots at one energy are at least the minimum distance apart. */
  ghost predicate AllSpread(o: Collaborators, featureSpots: map<nat, seq<UsedSpot>>, d: int) {
    forall id :: id in featureSpots ==> SpreadOut(o, featureSpots[id], d)
  }

  /** The reuse pass of a row keeps every feature's list spread out. */
  lemma AfterReuseKeepsSpread(c: Config, o: Collaborators, s: EngineState, row: Row)
    requires Honest(o)
    requires AllSpread(o, s.featureSpots, c.minDistance)
    ensures AllSpread(o, AfterReuse(c, o, s, row).0.featureSpots, c.minDistance)
  {
    var f := row.best;
    var cands := PossibleExistingSpots(s.reg.spots, f.series, c.minIntensity);
    var st0 := PassOf(s, f.id, NewPrecursor(c, o, f));
    assert SpreadOut(o, st0.used, c.minDistance);
    ReuseKeepsSpread(c, o, cands, st0);
  }

  /** The create pass keeps every feature's list spread out. */
  lemma CreateNewKeepsSpread(c: Config, o: Collaborators, limit: nat, s: EngineState, p: Precursor,
                             series: seq<DataPoint>)
    requires Honest(o)
    requires AllSpread(o, s.featureSpots, c.minDistance)
    ensures AllSpread(o, CreateNewMsMsSpots(c, o, limit, s, p, series).0.featureSpots, c.minDistance)
  {
    var st := PassOf(s, p.ion.featureId, p);
    assert SpreadOut(o, st.used, c.minDistance);
    CreateKeepsSpread(c, o, limit, series, IntensityOrder(series), st);
  }

  /** With honest energy helpers one row keeps every feature's spots at one
      energy at least the minimum distance apart. */
  lemma RowKeepsSpread(c: Config, o: Collaborators, limit: nat, s: EngineState, row: Row)
    requires Honest(o)
    requires AllSpread(o, s.featureSpots, c.minDistance)
    ensures var r := ProcessRow(c, o, limit, s, row);
            r.Ok? ==> AllSpread(o, r.state.featureSpots, c.minDistance)
  {
    if !(row.best.height < c.minIntensity) {
      AfterReuseKeepsSpread(c, o, s, row);
      var after := AfterReuse(c, o, s, row);
      if ReachesCreate(c, o, limit, s, row) {
        CreateNewKeepsSpread(c, o, limit, after.0, after.1, row.best.series);
      }
    }
  }

  /** With honest energy helpers the row loop keeps every feature's spots at
      one energy at least the minimum distance apart. */
  lemma {:induction false} RunKeepsSpread(c: Config, o: Collaborators, limit: nat, rows: seq<Row>,
                                          s: EngineState)
    requires Honest(o)
    requires AllSpread(o, s.featureSpots, c.minDistance)
    ensures var r := RunRows(c, o, limit, rows, s);
            r.Ok? ==> AllSpread(o, r.state.featureSpots, c.minDistance)
    decreases |rows|
  {
    if |rows| > 0 {
      RowKeepsSpread(c, o, limit, s, rows[0]);
      var r := ProcessRow(c, o, limit, s, rows[0]);
      if r.Ok? {
        RunKeepsSpread(c, o, limit, rows[1..], r.state);
      }
    }
  }

  /** With honest energy helpers a whole run keeps every feature's spots at
      one energy at least the minimum distance apart. */
  lemma RunSpotsSpreadOut(c: Config, o: Collaborators, limit: nat, rows: seq<Row>)
    requires Honest(o)
    ensures var r := RunRows(c, o, limit, SortRows(rows), Initial(c));
            r.Ok? ==> AllSpread(o, r.state.featureSpots, c.minDistance)
  {
    RunKeepsSpread(c, o, limit, SortRows(rows), Initial(c));
  }

  /** `g` is the frame of a point of the best feature of one of the rows. */
  ghost predicate InSomeSeries(g: Frame, rows: seq<Row>) {
    exists i, k :: 0 <= i < |rows| && 0 <= k < |rows[i].best.series|
      && rows[i].best.series[k].frame == g
  }

  /** Every key the rows add to the registry is a frame of one of their
      features' series: the registry can never hold more spots than there
      are frames, whatever the capacity guard does. */
  lemma {:induction false} RunKeysFromSeries(c: Config, o: Collaborators, limit: nat, rows: seq<Row>,
                                             s: EngineState)
    ensures var r := RunRows(c, o, limit, rows, s);
            r.Ok? ==> forall g :: g in r.state.reg.spots ==> g in s.reg.spots || InSomeSeries(g, rows)
    decreases |rows|
  {
    var r := RunRows(c, o, limit, rows, s);
    if |rows| > 0 && r.Ok? {
      var s1 := ProcessRow(c, o, limit, s, rows[0]).state;
      RowKeysFromSeries(c, o, limit, s, rows[0]);
      RunKeysFromSeries(c, o, limit, rows[1..], s1);
      forall g | g in r.state.reg.spots
        ensures g in s.reg.spots || InSomeSeries(g, rows)
      {
        if g !in s.reg.spots {
          if g in s1.reg.spots {
            var k :| 0 <= k < |rows[0].best.series| && rows[0].best.series[k].frame == g;
            assert InSomeSeries(g, rows) by {
              assert 0 <= 0 < |rows| && rows[0].best.series[k].frame == g;
            }
          } else {
            assert InSomeSeries(g, rows[1..]);
            var i, k :| 0 <= i < |rows[1..]| && 0 <= k < |rows[1..][i].best.series|
                        && rows[1..][i].best.series[k].frame == g;
            assert rows[1..][i] == rows[i + 1];
          }
        }
      }
    }
  }

  /** The create pass adds keys only at frames of the series it walks. */
  lemma CreateAndCountKeysFromSeries(c: Config, o: Collaborators, limit: nat, s: EngineState, p: Precursor,
                                     series: seq<DataPoint>)
    ensures var r := CreateAndCount(c, o, limit, s, p, series);
            r.Ok? ==> forall g :: g in r.state.reg.spots && g !in s.reg.spots ==>
                        exists k :: 0 <= k < |series| && series[k].frame == g
  {
    var order := IntensityOrder(series);
    var st := PassState(s.reg, SpotsOfFeature(s, p.ion.featureId), p);
    CreateOnlyAtFreshFrames(c, o, limit, series, order, st);
    var after := CreatePass(c, o, limit, series, order, st);
    forall g | g in after.reg.spots && g !in s.reg.spots
      ensures exists k :: 0 <= k < |series| && series[k].frame == g
    {
      assert IsFloorCandidate(c, o, p.ion, series, order, g);
    }
  }

  /** One row adds keys only at frames of its best feature's series. */
  lemma RowKeysFromSeries(c: Config, o: Collaborators, limit: nat, s: EngineState, row: Row)
    ensures var r := ProcessRow(c, o, limit, s, row);
            r.Ok? ==> forall g :: g in r.state.reg.spots && g !in s.reg.spots ==>
                        exists k :: 0 <= k < |row.best.series| && row.best.series[k].frame == g
  {
    if ReachesCreate(c, o, limit, s, row) {
      var after := AfterReuse(c, o, s, row);
      CreateAndCountKeysFromSeries(c, o, limit, after.0, after.1, row.best.series);
    }
  }

  /** When no frame passes the purity gate for any ion, a run that starts with
      no spots never creates one, and every row that reaches the create pass
      lands in bucket 0 of the histogram. */
  lemma {:induction false} AllImpureCreatesNothing(c: Config, o: Collaborators, limit: nat, rows: seq<Row>,
                                                   s: EngineState)
    requires forall f, ion :: !CheckChimerityScore(o, c.minChimerity, ion, f)
    requires s.reg.spots == map[] && s.reg.log == []
    ensures var r := RunRows(c, o, limit, rows, s);
            r.Ok? ==> && r.state.reg.spots == map[] && r.state.reg.log == []
                      && forall i :: 0 < i < |s.histogram| ==> r.state.histogram[i] == s.histogram[i]
    decreases |rows|
  {
    if |rows| > 0 {
      var r := ProcessRow(c, o, limit, s, rows[0]);
      RowImpureIdle(c, o, limit, s, rows[0]);
      if r.Ok? {
        AllImpureCreatesNothing(c, o, limit, rows[1..], r.state);
      }
    }
  }

  /** One row of the all-impure scenario. */
  lemma RowImpureIdle(c: Config, o: Collaborators, limit: nat, s: EngineState, row: Row)
    requires forall f, ion :: !CheckChimerityScore(o, c.minChimerity, ion, f)
    requires s.reg.spots == map[] && s.reg.log == []
    ensures var r := ProcessRow(c, o, limit, s, row);
            r.Ok? ==> && r.state.reg.spots == map[] && r.state.reg.log == []
                      && forall i :: 0 < i < |s.histogram| ==> r.state.histogram[i] == s.histogram[i]
  {
    var f := row.best;
    if !(f.height < c.minIntensity) {
      var p := NewPrecursor(c, o, f);
      var cands := PossibleExistingSpots(s.reg.spots, f.series, c.minIntensity);
      NoSpotsNoCandidates(f.series, c.minIntensity);
      var (s1, p1) := AfterReuse(c, o, s, row);
      assert s1.reg == s.reg && p1 == p;
      var order := IntensityOrder(f.series);
      var st := PassState(s1.reg, SpotsOfFeature(s1, f.id), p1);
      CreateIdleWhenImpure(c, o, limit, f.series, order, st);
    }
  }

  /** The create pass makes nothing when no frame passes the purity gate. */
  lemma {:induction false} CreateIdleWhenImpure(c: Config, o: Collaborators, quota: nat,
                                                series: seq<DataPoint>, order: seq<int>,
                                                st: PassState)
    requires forall k :: 0 <= k < |order| ==> 0 <= order[k] < |series|
    requires forall f, ion :: !CheckChimerityScore(o, c.minChimerity, ion, f)
    ensures CreatePass(c, o, quota, series, order, st) == st
    decreases |order|
  {
    if |order| > 0 && TotalMsMs(st.precursor) < TotalMsMsPerFeature(c) {
      assert !CreateAttempt(c, o, quota, series, order[0], st).Created?;
      CreateIdleWhenImpure(c, o, quota, series, order[1..], st);
    }
  }
}
